=== FILE: README.md ===
# log-instance in Dafny

A model of `LogInstance`, the leveled logger of the `log-instance` package
(`src/log-instance.js`), with proofs about it. The model has six parts:

- **`TimestampFormat`** (`timestamp.dfy`): the static `timestamp(now, format)`. It is a chain of six global,
  literal replacements of the tokens `YYYY`, `MM`, `DD`, `HH`, `mm` and `ss`. Each replacement is modelled
  as JavaScript's left-to-right, non-overlapping `/X/g` replace. A lemma proves that the whole chain equals
  one left-to-right pass over the template (`Render`). The examples 2020-01-31 13:22:33 →
  `"20200131 13:22:33"` and → `"2020-01-31 132233"` are proved.
- **`LevelTable`** (`levels.dfy`): the default level table and the threshold rule of `_log`. It also holds the
  membership test of the `logLevel` setter, both as written and as intended (see Findings).
- **`LogCore`** (`log_core.dfy`): the class `LogInstance`. This covers:
  - the constructor's option precedence;
  - the validated `logLevel` and deprecated `level` setters;
  - `_log`, which reads the singleton's table and template and updates `_lastLog` in place;
  - `lastLog(level = 'info')`;
  - `debug`/`info`/`warn`/`error`.
- **`Binder`** (`binder.dfy`): the `logInstance(inst, opts)` binder on an arbitrary object (class `Node`).
  - The binder checks ten reserved names in a fixed order. It installs each name before checking the next,
    so a collision leaves the earlier installs in place.
  - The installed methods forward to the logger. The class name is prefixed unless `addName === false`.
  - The effective level is `inst.logLevel || that.logLevel`: one step of fallback.
- **`Scenarios`** (`scenarios.dfy`): the documented `MyUtility` usage, played through the objects and
  methods.
- **`Wrappers`** (`wrappers.dfy`): an `Option` type.

The clock is a parameter. An `Instant` holds the UTC year, zero-based month, day, hours, minutes and
seconds. The console handlers are external sinks, so a `_log` call returns which handler would receive
which record (`LogOutcome`). The module-level `singleton` that `_log` reads is passed explicitly.

Where the source and its older documentation or tests disagree, the model follows the code:

- The year is written as `String(year)`, not padded to four digits.
- An empty `timestampFormat` falls back to the default, because of `||`.
- A failing bind is not all-or-nothing.
- The messages say "cannot overwrite existing …".
- `opts.logLevel` of `logInstance` is computed but never used. The bound `logLevel` is always `false`.
- Nested binding collapses to at most two levels below the logger. So in the four-object chain test the
  third object inherits the key `"false"`, not the root's level.
- An unknown level name assigned to a bound object is not reported as `Invalid logLevel:`. The lookup
  simply fails; this is a precondition here.

## Model

| member | source | states |
|---|---|---|
| TimestampFormat.NatToStringDigits | src/log-instance.js:54 | the decimal text of a year is made of digits only |
| TimestampFormat.NatToStringLastDigits | src/log-instance.js:55-59 | the last one or two characters of `String(n)` are the units and tens digits of n |
| TimestampFormat.Pad2 | src/log-instance.js:55-59 | `` `0${n}`.slice(-2) `` is the tens digit then the units digit of n, for every n including n >= 100 |
| TimestampFormat.ReplaceAllUnchanged | src/log-instance.js:54-59 | a global replacement leaves a text unchanged when the pattern's first letter does not occur in it, or when the pattern is replaced by itself |
| TimestampFormat.ReplaceAllSkips | src/log-instance.js:54-59 | a prefix in which the pattern cannot start is copied as is, and the replacement goes on after it |
| TimestampFormat.TimestampIsReplaceFrom | src/log-instance.js:52-61 | the six chained replacements are the replacements for the tokens YYYY, MM, DD, HH, mm, ss applied in that order |
| TimestampFormat.FieldsValid | src/log-instance.js:54-59 | every replacement text is non-empty and contains no token letter, so no replacement creates a token for a later one |
| TimestampFormat.TimestampIsSinglePass | src/log-instance.js:52-61 | the six chained global replacements give the same text as one left-to-right scan that replaces each token and copies every other character |
| TimestampFormat.ReplaceFromIsRender | src/log-instance.js:53-60 | applying the replacements for tokens 0..5 in turn equals the single-pass reading, for every template |
| TimestampFormat.NoTokensUnchanged | src/log-instance.js:52-61 | a template that contains no token comes back unchanged |
| TimestampFormat.RenderPieces | src/log-instance.js:53-60 | a template built from tokens and plain characters reads as each token's field and each character as is |
| TimestampFormat.TimestampOfPieces | src/log-instance.js:52-61 | the timestamp of such a template is the layout of the instant's fields |
| TimestampFormat.ExampleFields | src/log-instance.js:54-59 | 2020-01-31T13:22:33Z gives the fields "2020", "01", "31", "13", "22", "33" |
| TimestampFormat.Examples | src/log-instance.js:52-61 | 2020-01-31T13:22:33Z formats as "20200131 13:22:33" with the default template and as "2020-01-31 132233" with "YYYY-MM-DD HHmmss" |
| LevelTable.DefaultLevels | src/log-instance.js:9-38 | the default table has exactly six entries; the next row names them and orders their priorities |
| LevelTable.DefaultLevelsOrdered | src/log-instance.js:9-38 | the default names are exactly any, debug, info, warn, error, none, with strictly increasing priorities |
| LevelTable.Emits | src/log-instance.js:85 | a handler level always passes a threshold equal to itself |
| LevelTable.DefaultFilterRule | src/log-instance.js:85 | with the default table: none blocks all four methods; error passes only error; warn passes warn and error; info passes all but debug; debug and any pass all |
| LevelTable.ThresholdMonotone | src/log-instance.js:85 | raising the threshold's priority never lets more calls through |
| LevelTable.PriorityAsWritten | src/log-instance.js:76-85 | for a threshold the setter as written lets through, an inherited member that is no key of the table has no priority (`undefined`) and every key of the table, an inherited name included, has its level's priority |
| LevelTable.EmitsAsWrittenAgrees | src/log-instance.js:76-85 | for thresholds the corrected setter accepts, the filter as written and the intended filter agree |
| LevelTable.InheritedNameAccepted | src/log-instance.js:76 | the setter as written accepts "toString", which is no level, and with it every `_log` call is dropped |
| LevelTable.SetterAcceptsCorrected | src/log-instance.js:76 | the intended test is the written test minus the names every object inherits |
| LogCore.ConstructorDefaults | src/log-instance.js:5-40 | with no options: name "LogInstance", the default template and table, level 'info', which the setter accepts |
| LogCore.ConstructorPrecedence | src/log-instance.js:6-39 | `logLevel` wins over `level`; an empty template falls back to the default; the name is never empty |
| LogCore.LogInstance.constructor | src/log-instance.js:5-41 | the fields are the option values or their defaults, `logger` is the object itself, `_lastLog` is empty |
| LogCore.Create | src/log-instance.js:5-41 | `new LogInstance(opts)` throws `invalid logLevel` exactly when the initial level is not a key of the table (the intended setter test); otherwise it returns a fresh, valid logger with those fields |
| LogCore.LogInstance.SetLogLevel | src/log-instance.js:75-80 | a name that is no level throws `invalid logLevel:"v"` and keeps the old threshold; otherwise the threshold becomes v |
| LogCore.LogInstance.SetLevel | src/log-instance.js:67-69 | the deprecated setter behaves exactly as `logLevel` |
| LogCore.Message | src/log-instance.js:77-185 | the thrown text by error kind: an invalid level starts with `invalid logLevel:"`, every collision starts with "cannot overwrite existing ", and a non-function call starts with the expression |
| LogCore.InvalidLevelText | test/log-instance.js:172-181 | the setter's error for "bad" reads `invalid logLevel:"bad"` |
| LogCore.MethodText | src/log-instance.js:127 | the `_log` collision reads "cannot overwrite existing method: _log" |
| LogCore.PropertyText | src/log-instance.js:141 | the `logLevel` collision reads "cannot overwrite existing property: logLevel" |
| LogCore.LevelMethodText | src/log-instance.js:161 | a level method collision reads "cannot overwrite existing method: info()" |
| LogCore.JoinAppend | src/log-instance.js:94 | joining two non-empty lists puts one space between their joins |
| LogCore.RecordText | src/log-instance.js:86-94 | a record reads as "<timestamp> <abbreviation>" then " <arg>" for each argument |
| LogCore.RecordKeepsArgs | src/log-instance.js:86-88 | the record holds the arguments unchanged, after the timestamp and the abbreviation |
| LogCore.DispatchOutcome | src/log-instance.js:85-90 | a call is suppressed exactly when the filter blocks it; otherwise it reaches the handler level's handler, or fails when that level has none |
| LogCore.NextLastLogFrame | src/log-instance.js:86-88 | `_log` changes no entry of `_lastLog` but the handler level's, and creates that one only when it emits |
| LogCore.LastLogOf | src/log-instance.js:93-95 | a level never stored, other than a name every object inherits, reads as "", and a stored record of two or more parts never reads as "" |
| LogCore.LogInstance.Log | src/log-instance.js:82-91 | `_log` uses the singleton's table and template; it emits exactly when the filter passes, and then stores the record under the handler level only |
| LogCore.DispatchStoresRecord | src/log-instance.js:82-91 | a call is suppressed iff the filter blocks it and `_lastLog` is unchanged; otherwise the handed-over record is the one stored |
| LogCore.LastLogAfterLog | src/log-instance.js:82-95 | after `_log(h, …)`, `lastLog(h)` is the joined new record when the filter passes; every other level, and a blocked call, reads as before |
| LogCore.NeverEmittedIsEmpty | src/log-instance.js:93-95 | a level that never emitted, other than a name every object inherits, reads as "" |
| LogCore.LogInstance.Debug | src/log-instance.js:97-99 | `debug` is `_log` at 'debug' with the current threshold |
| LogCore.LogInstance.Info | src/log-instance.js:101-103 | `info` is `_log` at 'info' with the current threshold |
| LogCore.LogInstance.Warn | src/log-instance.js:105-107 | `warn` is `_log` at 'warn' with the current threshold |
| LogCore.LogInstance.Error | src/log-instance.js:109-111 | `error` is `_log` at 'error' with the current threshold |
| LogCore.InfoHelloText | src/log-instance.js:82-95 | `info(msg)` at threshold info reads back as "<timestamp> <abbreviation> msg", for any table with an info level |
| LogCore.DefaultInfoBlocked | src/log-instance.js:85-88 | with the default table, `info` at threshold warn stores nothing |
| LogCore.DefaultInfoHelloText | src/log-instance.js:18-22 | with the default table the info abbreviation in that text is "I" |
| LogCore.InfoExample | src/log-instance.js:82-95 | the default logger's `info("hello")` at 2020-01-31T13:22:33Z reads back as "20200131 13:22:33 I hello" |
| Binder.FirstCollision | src/log-instance.js:126-189 | the first reserved name that is truthy on the target, and that none before it is |
| Binder.FirstCollisionAfterInstall | src/log-instance.js:126-189 | installing a name that is not checked again does not move the first collision |
| Binder.BindAllSpec | src/log-instance.js:126-189 | over distinct names, the checks install every name before the first collision and nothing else, and throw for that name |
| Binder.BindStopsAtFirstCollision | src/log-instance.js:126-189 | a bind throws `cannot overwrite` for the first truthy reserved name, after installing all names before it; it succeeds iff none is truthy; other properties are untouched |
| Binder.AfterBind | src/log-instance.js:140-147 | after a successful bind every reserved name is installed and the own `logLevel` is `false` |
| Binder.RebindFails | src/log-instance.js:126-128 | binding the same object twice throws at `_log` and changes nothing |
| Binder.PartialBindExample | src/log-instance.js:126-156 | an object with its own `log` keeps `_log`, `logInstance`, `logLevel` and `logger` installed and gets none of the later names |
| Binder.FalsyValuesDoNotBlock | src/log-instance.js:126-189 | when every reserved name the object has holds a falsy value, the bind succeeds, whatever its other properties are |
| Binder.BindStep | src/log-instance.js:126-189 | a check that passes is followed by its install and the remaining checks |
| Binder.BindStop | src/log-instance.js:126-189 | a check that fails throws and installs nothing more |
| Binder.Outgoing | src/log-instance.js:122-123 | the arguments are copied; with `addName` the first becomes "<name>: <first>" and the rest are kept; without it they are passed as they are |
| Binder.PrefixedText | src/log-instance.js:123 | the joined prefixed arguments are "<name>: " followed by the joined arguments |
| Binder.BoundRecordText | src/log-instance.js:119-125 | a bound call that passes the filter reads back at the root as "<timestamp> <abbreviation> <name>: <args>" |
| Binder.InheritOneStep | src/log-instance.js:121 | a falsy own level falls back to the parent's own `logLevel`, one step only, so a parent's installed `false` is looked up as "false" |
| Binder.DeferThenOverrideExample | src/log-instance.js:121 | the installed `false` defers to the logger's 'warn', which blocks `log`; an own 'info' lets `log` pass |
| Binder.Node.constructor | src/log-instance.js:113 | the object handed to the binder starts unbound, with every property visible on it (inherited ones included) recorded by its truthiness |
| Binder.Node.ForwardLog | src/log-instance.js:129-131 | when the parent's own `logger` is the installed one, the installed `_log` runs the root's `_log`, and the record lands in the root's `_lastLog` |
| Binder.Node.DoLog | src/log-instance.js:119-125 | `doLog` prefixes the name, takes `inst.logLevel or that.logLevel` as threshold and dispatches at the root |
| Binder.Node.Log | src/log-instance.js:157-159 | the installed `log` writes at 'info' through `doLog` |
| Binder.Node.Info | src/log-instance.js:163-165 | the installed `info` writes at 'info' through `doLog` |
| Binder.Node.Debug | src/log-instance.js:169-171 | the installed `debug` writes at 'debug' through `doLog` |
| Binder.Node.Warn | src/log-instance.js:175-177 | the installed `warn` writes at 'warn' through `doLog` |
| Binder.Node.Error | src/log-instance.js:181-183 | the installed `error` always throws `args.slice is not a function` |
| Binder.Node.ErrorCorrected | src/log-instance.js:181-183 | the intended `error` writes at 'error' through `doLog` |
| Binder.Node.AssignLogLevel | src/log-instance.js:143-147 | the bound `logLevel` is writable and unvalidated |
| Binder.Node.Bind | src/log-instance.js:135-139 | a bound object's `logInstance(child)` binds the child below this object when it is bound to the logger, else below its own parent |
| Binder.Bind | src/log-instance.js:113-190 | `logInstance(inst, opts)` on the logger changes the target's properties exactly as the ordered checks prescribe, and binds it to the logger unless `_log` was already truthy |
| Binder.BindTo | src/log-instance.js:126-131 | the `_log` check and install, then the other nine in order |
| Binder.InstallRest | src/log-instance.js:132-153 | the `logInstance`, `logLevel` and `logger` checks and installs, then the rest |
| Binder.InstallMethods | src/log-instance.js:154-171 | the `log`, `info` and `debug` checks and installs, then the rest |
| Binder.InstallLast | src/log-instance.js:172-189 | the `warn`, `error` and `lastLog` checks and installs |
| Scenarios.BoundUtility | src/log-instance.js:113-190 | a `MyUtility` object bound to a default logger gets `log`, the logger as parent and `logLevel` `false` |
| Scenarios.MessageLine | src/log-instance.js:119-125 | with the default table, `log(msg)` reads back as "<timestamp> I MyUtility: msg" |
| Scenarios.LogMessage | src/log-instance.js:157-159 | `myUtil.log(msg)` lands in the logger's info entry with the class name |
| Scenarios.MuteAfterWarn | src/log-instance.js:121 | once the logger is at 'warn' the utility's `log` is muted and the info entry keeps the earlier line |
| Scenarios.OverrideLevel | src/log-instance.js:121 | with an own 'info' the utility's `log` reaches the console log handler while the logger's own `info` stays muted |

The step functions `TimestampFormat.Timestamp`, `TimestampFormat.ReplaceAll`, `LogCore.Record`, `LogCore.Dispatch`,
`LogCore.NextLastLog`, `Binder.BindAll`, `Binder.BindResult`, `Binder.Inherit`, `Binder.Node.ParentLevel`,
`Binder.Node.EffectiveLevel`, `Binder.Node.Label` and `Binder.AddNameOf` are the model itself. They carry no contract
of their own: the lemmas and methods in the rows above state what they compute.

## Left out

- Console handlers: `console.debug/log/warn/error` and the `none` no-op are external sinks. A `_log` call returns the handler and the record it would be given.
- An entry without a `handler` (the default `any`): its record is stored and the handler call throws. The model returns `HandlerMissing` for it.
- The clock: `new Date()` is replaced by an `Instant` parameter. The JavaScript `Date` API is not modelled, including out-of-range components.
- The static `singleton` getter and static `logInstance` (src/log-instance.js:43-50) are glue. The singleton is passed to `_log` explicitly. A `_log` call made before any singleton exists throws, and that case is not modelled.
- The UMD export wrapper (src/log-instance.js:193-194) and `index.mjs` are glue.
- Property descriptors are not modelled. Non-enumerability and the read-only installed properties do not affect the checks, which only test truthiness.
- Option values other than strings are not modelled: a table with malformed entries, non-string log levels, and non-string arguments. An empty string stands for a missing or falsy option.
- Reassigning a logger's own `logger` property is not modelled, so a logger is always its own `logger`.
- `opts.logLevel` of `logInstance` (src/log-instance.js:115-117) is computed and never used, so it has no effect in the model.
- Binder.LevelKey: the string form of a foreign or function-valued `logLevel` is not modelled.
- Binder.Node.DoLog: a call whose effective level is not a key of the table is excluded by a precondition, and so for `Log`, `Info`, `Debug`, `Warn` and `ErrorCorrected`. Two source behaviours fall under it. A name that is neither a key nor an inherited member makes `levels[name].priority` throw a TypeError. An inherited name such as "toString", which the unvalidated bound `logLevel` accepts, makes the comparison `undefined <= n` false, so the call is silently dropped and stores nothing; `LevelTable.EmitsAsWritten` states that drop for the logger's own threshold, but the bound methods do not model it.
- Binder.Node.Label: the object's `name` and class name are fixed once it is handed to the binder. The source re-reads `inst.name || inst.constructor.name` on every call, so renaming a bound object changes the prefix of its later lines; that is not modelled.
- Binder.Node.Error: an object that has its own `slice` method would not throw at that point. Such objects are not modelled.
- Binder.BindTo: the ten checks of the single source function are split over four methods. They run in the same order and are specified against the same function.
- LogCore.LogInstance.constructor: the initial level is checked with the intended test, so a level name that only an inherited member makes truthy, such as "toString", is refused here although the source accepts it (see Findings).
- LogCore.Create: the same intended test decides when `invalid logLevel` is thrown, so "toString" as initial level is refused here although the source accepts it.
- LogCore.LogInstance.SetLevel: forwards to the corrected `logLevel` setter and therefore refuses inherited names the source accepts.
- LogCore.LogInstance: `name`, `timestampFormat` and `levels` are constants here, although they are writable properties in the source. Reassigning them, which a later `_log` would observe through the singleton, is not modelled.
- LogCore.LastLogOf: `_lastLog` is a plain object, so `lastLog(name)` for a name every object inherits (such as "toString" or "constructor") that was never stored reads the inherited member, which is truthy and has no `join`, and the source throws a TypeError. `LogCore.LastLogOf`, `LogCore.NeverEmittedIsEmpty`, `LogCore.LogInstance.LastLog` and `Binder.Node.LastLog` exclude such names by a precondition (`Readable`) instead of modelling the throw.
- Binder.Node.ForwardLog: a child bound below a parent whose own bind threw at the `logger` check runs the parent's foreign `logger` value's `_log`, which throws a TypeError or reaches a different logger. A precondition excludes that case, so the model does not promise what such a call does.
- Binder.Node.LastLog and LogCore.LogInstance.LastLog only forward to `LastLogOf` on the root's `_lastLog`; their behaviour is stated by the `LastLogOf`, `LastLogAfterLog` and `BoundRecordText` rows.
- The `level` and `logLevel` getters (src/log-instance.js:63-65, 71-73) read a field and are not separate members.

## Findings

| source | as written | input that shows it | evidently intended | confidence | as-written member | corrected member |
|---|---|---|---|---|---|---|
| src/log-instance.js:76 | the setter accepts any name for which `levels[value]` is truthy, which includes names every object inherits | `logger.logLevel = "toString"` is accepted, and afterwards every `_log` call is silently dropped | accept only names that are keys of the table | not executed | LevelTable.InheritedNameAccepted | LogCore.LogInstance.SetLogLevel |
| src/log-instance.js:182 | the installed `error` calls `doLog(inst, args, 'error')`, so `args` is the object and the level is the argument list | `myUtil.error("x")` on any bound object throws `args.slice is not a function` | `doLog(args, 'error')`, as for the other level methods | not executed | Binder.Node.Error | Binder.Node.ErrorCorrected |

=== FILE: binder.dfy ===
/**
 * The `logInstance(inst, opts)` binder: it checks ten reserved names on an
 * arbitrary object in a fixed order, installing each one before checking the
 * next, and throws at the first name that is already truthy.  The installed
 * methods forward to the logger the object was bound to.
 */
module Binder {

  import opened Wrappers
  import opened LevelTable
  import opened LogCore
  import TimestampFormat

  // ----- The target object's reserved properties -----

  /** The value of a bound object's own `logLevel`: the installed `false`, or a name assigned later. */
  datatype LevelValue = False | Name(name: string)

  /** A property of the target, as far as the binder looks at it. */
  datatype Prop =
    | Foreign(truthy: bool)            // present before binding, with its truthiness
    | Installed                        // a forwarding function, or the `logger` reference
    | LevelSetting(value: LevelValue)  // the writable `logLevel` the binder defines

  predicate Truthy(p: Prop) {
    match p
    case Foreign(t) => t
    case Installed => true
    case LevelSetting(v) => v.Name? && v.name != ""
  }

  /** The names checked and installed, in the order of the checks. */
  const Reserved: seq<string> :=
    ["_log", "logInstance", "logLevel", "logger", "log", "info", "debug", "warn", "error", "lastLog"]

  /** What the binder defines under a reserved name. */
  function InstalledValue(key: string): Prop {
    if key == "logLevel" then LevelSetting(False) else Installed
  }

  /** `if (inst[key])`. */
  predicate TruthyAt(props: map<string, Prop>, key: string) {
    key in props && Truthy(props[key])
  }

  /** The checks and installs for `names`, in order, and how they end. */
  function BindAll(props: map<string, Prop>, names: seq<string>): (map<string, Prop>, Outcome)
    decreases |names|
  {
    if names == [] then (props, Ok)
    else if TruthyAt(props, names[0]) then (props, Fail(CannotOverwrite(names[0])))
    else BindAll(props[names[0] := InstalledValue(names[0])], names[1..])
  }

  /** What `logInstance` does to the target's properties, and whether it throws. */
  function BindResult(props: map<string, Prop>): (map<string, Prop>, Outcome) {
    BindAll(props, Reserved)
  }

  // ----- What a bind does, stated without the step-by-step order -----

  predicate Distinct(names: seq<string>) {
    forall a, b :: 0 <= a < b < |names| ==> names[a] != names[b]
  }

  /** The least position whose name is truthy on the target, or |names| when there is none. */
  function FirstCollision(props: map<string, Prop>, names: seq<string>): (k: nat)
    ensures k <= |names|
    ensures k < |names| ==> TruthyAt(props, names[k])
    ensures forall j :: 0 <= j < k ==> !TruthyAt(props, names[j])
  {
    if names == [] || TruthyAt(props, names[0]) then 0 else 1 + FirstCollision(props, names[1..])
  }

  /** r is p with exactly the names of `done` installed. */
  ghost predicate InstalledExactly(p: map<string, Prop>, r: map<string, Prop>, done: seq<string>) {
    (forall key :: key in r <==> key in p || key in done) &&
    (forall key :: key in r ==> r[key] == if key in done then InstalledValue(key) else p[key])
  }

  lemma DistinctTail(names: seq<string>)
    requires names != [] && Distinct(names)
    ensures names[0] !in names[1..] && Distinct(names[1..])
  {
    var rest := names[1..];
    forall j | 0 <= j < |rest| ensures rest[j] != names[0] {
      assert rest[j] == names[j + 1];
    }
    forall a, b | 0 <= a < b < |rest| ensures rest[a] != rest[b] {
      assert rest[a] == names[a + 1] && rest[b] == names[b + 1];
    }
  }

  lemma InstalledExactlyCons(p: map<string, Prop>, key: string, r: map<string, Prop>, done: seq<string>)
    requires InstalledExactly(p[key := InstalledValue(key)], r, done)
    ensures InstalledExactly(p, r, [key] + done)
  {
  }

  /** Installing a name that is not checked again does not change where the first collision is. */
  lemma {:induction false} FirstCollisionAfterInstall(p: map<string, Prop>, key: string, names: seq<string>)
    requires key !in names
    ensures FirstCollision(p[key := InstalledValue(key)], names) == FirstCollision(p, names)
  {
    var p' := p[key := InstalledValue(key)];
    if names != [] {
      assert names[0] != key;
      assert TruthyAt(p', names[0]) == TruthyAt(p, names[0]);
      if !TruthyAt(p, names[0]) {
        FirstCollisionAfterInstall(p, key, names[1..]);
      }
    }
  }

  /**
   * Over distinct names, the binder installs every name before the first
   * collision k, leaves every other property as it was, and throws for name k
   * (or succeeds when there is none).
   */
  lemma {:induction false} BindAllSpec(p: map<string, Prop>, names: seq<string>)
    requires Distinct(names)
    ensures var k := FirstCollision(p, names);
      InstalledExactly(p, BindAll(p, names).0, names[..k]) &&
      BindAll(p, names).1 == if k < |names| then Fail(CannotOverwrite(names[k])) else Ok
    decreases |names|
  {
    if names != [] && !TruthyAt(p, names[0]) {
      var key, rest := names[0], names[1..];
      var p' := p[key := InstalledValue(key)];
      var k := FirstCollision(p, names);
      DistinctTail(names);
      FirstCollisionAfterInstall(p, key, rest);
      BindAllSpec(p', rest);
      assert k == 1 + FirstCollision(p', rest);
      assert names[..k] == [key] + rest[..k - 1];
      InstalledExactlyCons(p, key, BindAll(p', rest).0, rest[..k - 1]);
    } else {
      assert names[..0] == [];
    }
  }

  lemma ReservedDistinct()
    ensures Distinct(Reserved)
  {
  }

  /**
   * A bind, as a whole: it throws for the first reserved name that is truthy
   * on the target, after installing every name checked before it; it
   * succeeds when none is truthy; no other property is touched.
   */
  lemma BindStopsAtFirstCollision(props: map<string, Prop>)
    ensures var k := FirstCollision(props, Reserved);
      InstalledExactly(props, BindResult(props).0, Reserved[..k]) &&
      BindResult(props).1 == if k < |Reserved| then Fail(CannotOverwrite(Reserved[k])) else Ok
    ensures BindResult(props).1 == Ok <==> forall j :: 0 <= j < |Reserved| ==> !TruthyAt(props, Reserved[j])
  {
    ReservedDistinct();
    BindAllSpec(props, Reserved);
  }

  /** After a successful bind every reserved name is installed and the own `logLevel` is falsy. */
  lemma AfterBind(props: map<string, Prop>)
    requires BindResult(props).1 == Ok
    ensures var r := BindResult(props).0;
      (forall j :: 0 <= j < |Reserved| ==> Reserved[j] in r && r[Reserved[j]] == InstalledValue(Reserved[j])) &&
      "logLevel" in r && r["logLevel"] == LevelSetting(False) && !TruthyAt(r, "logLevel")
  {
    BindStopsAtFirstCollision(props);
    assert Reserved[..|Reserved|] == Reserved;
    assert Reserved[2] == "logLevel";
  }

  /** Binding the same object twice throws at `_log` and changes nothing. */
  lemma RebindFails(props: map<string, Prop>)
    requires BindResult(props).1 == Ok
    ensures var r := BindResult(props).0; BindResult(r) == (r, Fail(CannotOverwrite("_log")))
  {
    AfterBind(props);
    assert Reserved[0] == "_log";
  }

  /**
   * An object that already has a truthy `log` keeps the four names installed
   * before that check and gets none of the later ones.
   */
  lemma PartialBindExample()
    ensures var props := map["name" := Foreign(true), "log" := Foreign(true)];
      var (r, o) := BindResult(props);
      o == Fail(CannotOverwrite("log")) &&
      r == props["_log" := Installed]["logInstance" := Installed]["logLevel" := LevelSetting(False)]["logger" := Installed]
  {
    var p0 := map["name" := Foreign(true), "log" := Foreign(true)];
    BindStep(p0, 0);
    var p1 := p0["_log" := Installed];
    BindStep(p1, 1);
    var p2 := p1["logInstance" := Installed];
    BindStep(p2, 2);
    var p3 := p2["logLevel" := LevelSetting(False)];
    BindStep(p3, 3);
    var p4 := p3["logger" := Installed];
    BindStop(p4, 4);
    assert Reserved[0..] == Reserved;
  }

  /** Falsy values under reserved names do not stop a bind. */
  lemma FalsyValuesDoNotBlock(props: map<string, Prop>)
    requires forall j :: 0 <= j < |Reserved| && Reserved[j] in props ==> props[Reserved[j]] == Foreign(false)
    ensures BindResult(props).1 == Ok
  {
    BindStopsAtFirstCollision(props);
  }

  /** One check that passes, and its install. */
  lemma BindStep(p: map<string, Prop>, i: nat)
    requires i < |Reserved| && !TruthyAt(p, Reserved[i])
    ensures BindAll(p, Reserved[i..]) == BindAll(p[Reserved[i] := InstalledValue(Reserved[i])], Reserved[i + 1..])
  {
    assert Reserved[i..][0] == Reserved[i];
    assert Reserved[i..][1..] == Reserved[i + 1..];
  }

  /** One check that fails. */
  lemma BindStop(p: map<string, Prop>, i: nat)
    requires i < |Reserved| && TruthyAt(p, Reserved[i])
    ensures BindAll(p, Reserved[i..]) == (p, Fail(CannotOverwrite(Reserved[i])))
  {
    assert Reserved[i..][0] == Reserved[i];
  }

  // ----- Bound objects -----

  /** The `that` of a bind: the logger object itself, or a bound object whose `logInstance` was called. */
  datatype Parent = Root(core: LogInstance) | Child(node: Node)

  /** What the installed closures capture. */
  datatype Binding = Binding(that: Parent, addName: bool)

  /** The options of `logInstance(inst, opts)`; only `addName` has an effect. */
  datatype BindOptions = BindOptions(addName: Option<bool>)

  /** `opts.addName !== false`. */
  function AddNameOf(opts: BindOptions): bool {
    opts.addName != Some(false)
  }

  /** `` `${name}: ${args[0]}` `` on a copy of the arguments, when the name is added. */
  function Outgoing(who: string, args: seq<string>, addName: bool): (out: seq<string>)
    ensures !addName ==> out == args
    ensures addName ==> |out| == (if args == [] then 1 else |args|)
    ensures addName && args != [] ==> out[0] == who + ": " + args[0] && out[1..] == args[1..]
    ensures addName && args == [] ==> out == [who + ": undefined"]
  {
    if !addName then args
    else if args == [] then [who + ": undefined"]
    else [who + ": " + args[0]] + args[1..]
  }

  /** The joined text of prefixed arguments starts with the who. */
  lemma PrefixedText(who: string, args: seq<string>)
    requires args != []
    ensures Join(Outgoing(who, args, true)) == who + ": " + Join(args)
  {
    var out := Outgoing(who, args, true);
    if |args| > 1 {
      assert out[1..] == args[1..];
    }
  }

  /**
   * What the logger's `lastLog(h)` reads after a bound object's call passed
   * the filter: "<timestamp> <abbreviation> <name>: <first arg>", then the
   * other arguments.
   */
  lemma BoundRecordText(levels: Table, format: string, lastLog: map<string, seq<string>>, h: string,
                        t: string, who: string, args: seq<string>, now: TimestampFormat.Instant)
    requires h in levels && t in levels && Emits(levels, h, t) && args != []
    ensures LastLogOf(NextLastLog(levels, format, lastLog, h, t, Outgoing(who, args, true), now), h)
      == TimestampFormat.Timestamp(now, format) + " " + levels[h].abbreviation + " " + (who + ": " + Join(args))
  {
    LastLogAfterLog(levels, format, lastLog, h, t, Outgoing(who, args, true), now, h);
    PrefixedText(who, args);
  }

  /**
   * The documented example of a utility class bound to the default logger:
   * its installed `false` defers to the logger's 'warn', which mutes its
   * `log()`; once it assigns 'info' itself, its `log()` passes while the
   * logger's own `info()` stays muted.
   */
  lemma DeferThenOverrideExample()
    ensures Inherit(Some(LevelSetting(False)), Some("warn")) == Some("warn")
    ensures !Emits(DefaultLevels(), "info", "warn")
    ensures Inherit(Some(LevelSetting(Name("info"))), Some("warn")) == Some("info")
    ensures Emits(DefaultLevels(), "info", "info")
  {
    DefaultFilterRule("info");
  }

  /** `levels[value]` looks the value up under its string form. */
  function LevelKey(p: Option<Prop>): Option<string> {
    match p
    case None => Some("undefined")
    case Some(LevelSetting(False)) => Some("false")
    case Some(LevelSetting(Name(s))) => Some(s)
    case Some(_) => None   // a foreign value or a function: its string form is not modelled
  }

  /** `own || parentLevel`, as the key it is looked up under. */
  function Inherit(own: Option<Prop>, parentLevel: Option<string>): Option<string> {
    if own.Some? && Truthy(own.value) then LevelKey(own) else parentLevel
  }

  /**
   * The fallback is one step: a falsy own level gives the parent's own
   * `logLevel`, and when the parent is itself a bound object with the
   * installed `false`, the key is "false" and not the root's level.
   */
  lemma InheritOneStep(s: string, parentLevel: Option<string>)
    ensures Inherit(Some(LevelSetting(False)), parentLevel) == parentLevel
    ensures Inherit(Some(LevelSetting(Name(""))), parentLevel) == parentLevel
    ensures s != "" ==> Inherit(Some(LevelSetting(Name(s))), parentLevel) == Some(s)
    ensures Inherit(Some(LevelSetting(False)), LevelKey(Some(LevelSetting(False)))) == Some("false")
  {
  }

  function Get(props: map<string, Prop>, key: string): Option<Prop> {
    if key in props then Some(props[key]) else None
  }

  /** An object the binder has worked on; its reserved properties are all that is modelled of it. */
  class Node {
    const name: string             // `inst.name`, "" when missing or falsy
    const constructorName: string  // `inst.constructor.name`
    var props: map<string, Prop>
    var binding: Option<Binding>

    function ParentNodes(): set<object>
      reads this
    {
      if binding.Some? && binding.value.that.Child? then {binding.value.that.node} else {}
    }

    /**
     * `_log` is installed exactly when the closures have their `that`; nothing
     * else is installed without it; a bound object's parent is the logger or
     * an object bound directly to the logger, whose `_log` and `logInstance`
     * are installed.
     */
    ghost predicate Valid()
      reads this, ParentNodes()
    {
      (binding.Some? <==> Get(props, "_log") == Some(Installed)) &&
      (forall key :: key in props && !props[key].Foreign? ==> binding.Some?) &&
      (binding.Some? && binding.value.that.Child? ==> ParentOk(binding.value.that.node))
    }

    /** The object the binder is handed; `props` holds every property visible on it, inherited ones included. */
    constructor (name: string, constructorName: string, visible: map<string, bool>)
      ensures this.name == name && this.constructorName == constructorName
      ensures props == map key | key in visible :: Foreign(visible[key])
      ensures binding == None
      ensures Valid()
    {
      this.name := name;
      this.constructorName := constructorName;
      props := map key | key in visible :: Foreign(visible[key]);
      binding := None;
    }

    /** `inst.name || inst.constructor.name`. */
    function Label(): string {
      Or(name, constructorName)
    }

    /** The logger every forwarded call reaches. */
    function RootOf(): LogInstance
      reads this, ParentNodes()
      requires Valid() && binding.Some?
    {
      match binding.value.that
      case Root(core) => core
      case Child(p) => p.binding.value.that.core
    }

    /** `that.logLevel`. */
    function ParentLevel(): Option<string>
      reads this, ParentNodes(), (if binding.Some? && binding.value.that.Root? then {binding.value.that.core} else {})
      requires Valid() && binding.Some?
    {
      match binding.value.that
      case Root(core) => Some(core.logLevel)
      case Child(p) => LevelKey(Get(p.props, "logLevel"))
    }

    /** `inst.logLevel || that.logLevel`, the level `doLog` passes on. */
    function EffectiveLevel(): Option<string>
      reads this, ParentNodes(), (if binding.Some? && binding.value.that.Root? then {binding.value.that.core} else {})
      requires Valid() && binding.Some?
    {
      Inherit(Get(props, "logLevel"), ParentLevel())
    }

    /** The installed `_log`: `that.logger._log(...)`, which is always the root's `_log`. */
    method ForwardLog(singleton: LogInstance, handlerLevel: string, threshold: string, args: seq<string>,
                      now: TimestampFormat.Instant) returns (o: LogOutcome)
      requires Valid() && binding.Some? && RootOf().logger == RootOf()
      requires binding.value.that.Child? ==> Get(binding.value.that.node.props, "logger") == Some(Installed)
      requires handlerLevel in singleton.levels && threshold in singleton.levels
      modifies RootOf()`lastLog
      ensures o == Dispatch(singleton.levels, singleton.timestampFormat, handlerLevel, threshold, args, now)
      ensures RootOf().lastLog == NextLastLog(singleton.levels, singleton.timestampFormat,
                                              old(RootOf().lastLog), handlerLevel, threshold, args, now)
    {
      var core := RootOf();
      o := core.logger.Log(singleton, handlerLevel, threshold, args, now);
    }

    /** The inner `doLog(args, handlerLevel)`: prefix the name, pick the level, call `that._log`. */
    method DoLog(singleton: LogInstance, args: seq<string>, handlerLevel: string, now: TimestampFormat.Instant)
      returns (o: LogOutcome)
      requires Valid() && binding.Some? && RootOf().logger == RootOf()
      requires handlerLevel in singleton.levels
      requires EffectiveLevel().Some? && EffectiveLevel().value in singleton.levels
      modifies RootOf()`lastLog
      ensures o == Dispatch(singleton.levels, singleton.timestampFormat, handlerLevel, EffectiveLevel().value,
                            Outgoing(Label(), args, binding.value.addName), now)
      ensures RootOf().lastLog ==
        NextLastLog(singleton.levels, singleton.timestampFormat, old(RootOf().lastLog), handlerLevel,
                    EffectiveLevel().value, Outgoing(Label(), args, binding.value.addName), now)
    {
      var level := EffectiveLevel().value;
      var out := Outgoing(Label(), args, binding.value.addName);
      match binding.value.that
      case Root(core) =>
        o := core.Log(singleton, handlerLevel, level, out, now);
      case Child(p) =>
        o := p.ForwardLog(singleton, handlerLevel, level, out, now);
    }

    /** The installed `log` and `info` write at 'info'. */
    method Info(singleton: LogInstance, args: seq<string>, now: TimestampFormat.Instant) returns (o: LogOutcome)
      requires Valid() && Get(props, "info") == Some(Installed) && RootOf().logger == RootOf()
      requires "info" in singleton.levels
      requires EffectiveLevel().Some? && EffectiveLevel().value in singleton.levels
      modifies RootOf()`lastLog
      ensures o == Dispatch(singleton.levels, singleton.timestampFormat, "info", EffectiveLevel().value,
                            Outgoing(Label(), args, binding.value.addName), now)
      ensures RootOf().lastLog ==
        NextLastLog(singleton.levels, singleton.timestampFormat, old(RootOf().lastLog), "info",
                    EffectiveLevel().value, Outgoing(Label(), args, binding.value.addName), now)
    {
      o := DoLog(singleton, args, "info", now);
    }

    method Log(singleton: LogInstance, args: seq<string>, now: TimestampFormat.Instant) returns (o: LogOutcome)
      requires Valid() && Get(props, "log") == Some(Installed) && RootOf().logger == RootOf()
      requires "info" in singleton.levels
      requires EffectiveLevel().Some? && EffectiveLevel().value in singleton.levels
      modifies RootOf()`lastLog
      ensures o == Dispatch(singleton.levels, singleton.timestampFormat, "info", EffectiveLevel().value,
                            Outgoing(Label(), args, binding.value.addName), now)
      ensures RootOf().lastLog ==
        NextLastLog(singleton.levels, singleton.timestampFormat, old(RootOf().lastLog), "info",
                    EffectiveLevel().value, Outgoing(Label(), args, binding.value.addName), now)
    {
      o := DoLog(singleton, args, "info", now);
    }

    method Debug(singleton: LogInstance, args: seq<string>, now: TimestampFormat.Instant) returns (o: LogOutcome)
      requires Valid() && Get(props, "debug") == Some(Installed) && RootOf().logger == RootOf()
      requires "debug" in singleton.levels
      requires EffectiveLevel().Some? && EffectiveLevel().value in singleton.levels
      modifies RootOf()`lastLog
      ensures o == Dispatch(singleton.levels, singleton.timestampFormat, "debug", EffectiveLevel().value,
                            Outgoing(Label(), args, binding.value.addName), now)
      ensures RootOf().lastLog ==
        NextLastLog(singleton.levels, singleton.timestampFormat, old(RootOf().lastLog), "debug",
                    EffectiveLevel().value, Outgoing(Label(), args, binding.value.addName), now)
    {
      o := DoLog(singleton, args, "debug", now);
    }

    method Warn(singleton: LogInstance, args: seq<string>, now: TimestampFormat.Instant) returns (o: LogOutcome)
      requires Valid() && Get(props, "warn") == Some(Installed) && RootOf().logger == RootOf()
      requires "warn" in singleton.levels
      requires EffectiveLevel().Some? && EffectiveLevel().value in singleton.levels
      modifies RootOf()`lastLog
      ensures o == Dispatch(singleton.levels, singleton.timestampFormat, "warn", EffectiveLevel().value,
                            Outgoing(Label(), args, binding.value.addName), now)
      ensures RootOf().lastLog ==
        NextLastLog(singleton.levels, singleton.timestampFormat, old(RootOf().lastLog), "warn",
                    EffectiveLevel().value, Outgoing(Label(), args, binding.value.addName), now)
    {
      o := DoLog(singleton, args, "warn", now);
    }

    /**
     * The installed `error` passes its arguments to `doLog` in the wrong
     * order, so `args.slice()` is called on the object itself and throws.
     */
    method Error(args: seq<string>) returns (r: Outcome)
      requires Get(props, "error") == Some(Installed)
      ensures r == Fail(NotAFunction("args.slice"))
    {
      r := Fail(NotAFunction("args.slice"));
    }

    /** The evidently intended `error`: `doLog(args, 'error')`, like the other three level methods. */
    method ErrorCorrected(singleton: LogInstance, args: seq<string>, now: TimestampFormat.Instant)
      returns (o: LogOutcome)
      requires Valid() && Get(props, "error") == Some(Installed) && RootOf().logger == RootOf()
      requires "error" in singleton.levels
      requires EffectiveLevel().Some? && EffectiveLevel().value in singleton.levels
      modifies RootOf()`lastLog
      ensures o == Dispatch(singleton.levels, singleton.timestampFormat, "error", EffectiveLevel().value,
                            Outgoing(Label(), args, binding.value.addName), now)
      ensures RootOf().lastLog ==
        NextLastLog(singleton.levels, singleton.timestampFormat, old(RootOf().lastLog), "error",
                    EffectiveLevel().value, Outgoing(Label(), args, binding.value.addName), now)
    {
      o := DoLog(singleton, args, "error", now);
    }

    /** The installed `lastLog(level = 'info')`, answered by the root. */
    function LastLog(level: string := "info"): string
      reads this, ParentNodes(), (if binding.Some? && Valid() then {RootOf()} else {})
      requires Valid() && binding.Some?
      requires binding.value.that.Child? ==> Get(binding.value.that.node.props, "lastLog") == Some(Installed)
      requires Readable(RootOf().lastLog, level)
    {
      RootOf().LastLog(level)
    }

    /** `inst.logLevel = value` on the writable property the binder defined; nothing validates it. */
    method AssignLogLevel(value: string)
      requires Valid() && Get(props, "logLevel").Some? && Get(props, "logLevel").value.LevelSetting?
      modifies this`props
      ensures props == old(props)["logLevel" := LevelSetting(Name(value))]
      ensures Valid()
    {
      props := props["logLevel" := LevelSetting(Name(value))];
    }

    /**
     * The installed `logInstance(child, opts)` calls the logger's binder with
     * `this` as `that` when this object is bound to the logger, and through
     * the parent's own installed `logInstance` otherwise; so the child's
     * parent is never more than one step from the logger.
     */
    method Bind(child: Node, opts: BindOptions) returns (r: Outcome)
      requires Valid() && child.Valid() && Get(props, "logInstance") == Some(Installed)
      modifies child
      ensures var that := if old(binding).value.that.Root? then Child(this) else old(binding).value.that;
        (child.props, r) == BindResult(old(child.props)) &&
        child.binding == if old(TruthyAt(child.props, "_log")) then old(child.binding)
                         else Some(Binding(that, AddNameOf(opts)))
      ensures child.Valid()
    {
      match binding.value.that
      case Root(_) =>
        r := BindTo(Child(this), child, opts);
      case Child(p) =>
        r := BindTo(Child(p), child, opts);
    }
  }

  /** A parent a bound object can have: bound to the logger, with `_log` and `logInstance` installed. */
  ghost predicate ParentOk(p: Node)
    reads p
  {
    p.binding.Some? && p.binding.value.that.Root? &&
    Get(p.props, "_log") == Some(Installed) && Get(p.props, "logInstance") == Some(Installed)
  }

  ghost predicate ThatOk(that: Parent)
    reads if that.Child? then {that.node} else {}
  {
    that.Child? ==> ParentOk(that.node)
  }

  /** `LogInstance.prototype.logInstance(inst, opts)` called on the logger itself. */
  method Bind(core: LogInstance, inst: Node, opts: BindOptions) returns (r: Outcome)
    requires inst.Valid()
    modifies inst
    ensures (inst.props, r) == BindResult(old(inst.props))
    ensures inst.binding == if old(TruthyAt(inst.props, "_log")) then old(inst.binding)
                            else Some(Binding(Root(core), AddNameOf(opts)))
    ensures inst.Valid()
  {
    r := BindTo(Root(core), inst, opts);
  }

  /** The body of `logInstance`, run with `that` as its receiver: ten checks, each followed by its install. */
  method BindTo(that: Parent, inst: Node, opts: BindOptions) returns (r: Outcome)
    requires inst.Valid() && ThatOk(that)
    modifies inst
    ensures (inst.props, r) == BindResult(old(inst.props))
    ensures inst.binding == if old(TruthyAt(inst.props, "_log")) then old(inst.binding)
                            else Some(Binding(that, AddNameOf(opts)))
    ensures inst.Valid()
  {
    var addName := AddNameOf(opts);
    assert Reserved[0..] == Reserved;
    if TruthyAt(inst.props, "_log") {
      BindStop(inst.props, 0);
      return Fail(CannotOverwrite("_log"));
    }
    assert that.Child? ==> that.node != inst;
    BindStep(inst.props, 0);
    inst.props := inst.props["_log" := Installed];
    inst.binding := Some(Binding(that, addName));
    r := InstallRest(inst);
  }

  /** The checks and installs of `logInstance`, `logLevel` and `logger`. */
  method InstallRest(inst: Node) returns (r: Outcome)
    modifies inst`props
    ensures (inst.props, r) == BindAll(old(inst.props), Reserved[1..])
    ensures Get(inst.props, "_log") == old(Get(inst.props, "_log"))
  {
    if TruthyAt(inst.props, "logInstance") {
      BindStop(inst.props, 1);
      return Fail(CannotOverwrite("logInstance"));
    }
    BindStep(inst.props, 1);
    inst.props := inst.props["logInstance" := Installed];
    if TruthyAt(inst.props, "logLevel") {
      BindStop(inst.props, 2);
      return Fail(CannotOverwrite("logLevel"));
    }
    BindStep(inst.props, 2);
    inst.props := inst.props["logLevel" := LevelSetting(False)];
    if TruthyAt(inst.props, "logger") {
      BindStop(inst.props, 3);
      return Fail(CannotOverwrite("logger"));
    }
    BindStep(inst.props, 3);
    inst.props := inst.props["logger" := Installed];
    r := InstallMethods(inst);
  }

  /** The checks and installs of `log`, `info` and `debug`. */
  method InstallMethods(inst: Node) returns (r: Outcome)
    modifies inst`props
    ensures (inst.props, r) == BindAll(old(inst.props), Reserved[4..])
    ensures Get(inst.props, "_log") == old(Get(inst.props, "_log"))
  {
    if TruthyAt(inst.props, "log") {
      BindStop(inst.props, 4);
      return Fail(CannotOverwrite("log"));
    }
    BindStep(inst.props, 4);
    inst.props := inst.props["log" := Installed];
    if TruthyAt(inst.props, "info") {
      BindStop(inst.props, 5);
      return Fail(CannotOverwrite("info"));
    }
    BindStep(inst.props, 5);
    inst.props := inst.props["info" := Installed];
    if TruthyAt(inst.props, "debug") {
      BindStop(inst.props, 6);
      return Fail(CannotOverwrite("debug"));
    }
    BindStep(inst.props, 6);
    inst.props := inst.props["debug" := Installed];
    r := InstallLast(inst);
  }

  /** The checks and installs of `warn`, `error` and `lastLog`. */
  method InstallLast(inst: Node) returns (r: Outcome)
    modifies inst`props
    ensures (inst.props, r) == BindAll(old(inst.props), Reserved[7..])
    ensures Get(inst.props, "_log") == old(Get(inst.props, "_log"))
  {
    if TruthyAt(inst.props, "warn") {
      BindStop(inst.props, 7);
      return Fail(CannotOverwrite("warn"));
    }
    BindStep(inst.props, 7);
    inst.props := inst.props["warn" := Installed];
    if TruthyAt(inst.props, "error") {
      BindStop(inst.props, 8);
      return Fail(CannotOverwrite("error"));
    }
    BindStep(inst.props, 8);
    inst.props := inst.props["error" := Installed];
    if TruthyAt(inst.props, "lastLog") {
      BindStop(inst.props, 9);
      return Fail(CannotOverwrite("lastLog"));
    }
    BindStep(inst.props, 9);
    inst.props := inst.props["lastLog" := Installed];
    assert Reserved[10..] == [];
    r := Ok;
  }
}

=== FILE: levels.dfy ===
/**
 * The level table of a logger: a map from level names to a priority, an
 * abbreviation and an output handler, and the threshold rule `_log` applies.
 */
module LevelTable {

  import opened Wrappers

  /** Where an emitted record goes; the console methods are external sinks. */
  datatype Handler = ConsoleDebug | ConsoleLog | ConsoleWarn | ConsoleError | NoOp | Absent

  /**
   * One entry of the table.  An entry without an `abbreviation` (the default
   * `any`) is given "" here, which is what `join(' ')` makes of `undefined`.
   */
  datatype Level = Level(priority: int, abbreviation: string, handler: Handler)

  type Table = map<string, Level>

  /** The table a logger gets when no `levels` option is given. */
  function DefaultLevels(): (t: Table)
    ensures |t.Keys| == 6
  {
    map[
      "any" := Level(-2, "", Absent),
      "debug" := Level(-1, "D", ConsoleDebug),
      "info" := Level(0, "I", ConsoleLog),
      "warn" := Level(1, "WARN", ConsoleWarn),
      "error" := Level(2, "ERROR", ConsoleError),
      "none" := Level(3, "NONE", NoOp)
    ]
  }

  /** The default level names, from most to least verbose. */
  const DefaultOrder: seq<string> := ["any", "debug", "info", "warn", "error", "none"]

  /** The default table lists exactly the six names, with strictly increasing priorities. */
  lemma DefaultLevelsOrdered()
    ensures forall name :: name in DefaultLevels() <==> name in DefaultOrder
    ensures forall i, j :: 0 <= i < j < |DefaultOrder| ==>
      DefaultLevels()[DefaultOrder[i]].priority < DefaultLevels()[DefaultOrder[j]].priority
  {
    var t := DefaultLevels();
    forall i, j | 0 <= i < j < |DefaultOrder|
      ensures t[DefaultOrder[i]].priority < t[DefaultOrder[j]].priority
    {
      assert t[DefaultOrder[i]].priority == i - 2;
      assert t[DefaultOrder[j]].priority == j - 2;
    }
  }

  /** `_log(h, threshold, …)` emits exactly when the threshold's priority is at most the handler level's. */
  predicate Emits(levels: Table, handlerLevel: string, threshold: string)
    requires handlerLevel in levels && threshold in levels
    ensures threshold == handlerLevel ==> Emits(levels, handlerLevel, threshold)
  {
    levels[threshold].priority <= levels[handlerLevel].priority
  }

  /**
   * The filter rule with the default table, for the four levels the logger's
   * methods write at: `none` silences them all, `error` passes only errors,
   * `warn` passes warnings and errors, `info` everything but debug, and
   * `debug` and `any` pass all.
   */
  lemma DefaultFilterRule(h: string)
    requires h in {"debug", "info", "warn", "error"}
    ensures !Emits(DefaultLevels(), h, "none")
    ensures Emits(DefaultLevels(), h, "error") <==> h == "error"
    ensures Emits(DefaultLevels(), h, "warn") <==> h == "warn" || h == "error"
    ensures Emits(DefaultLevels(), h, "info") <==> h != "debug"
    ensures Emits(DefaultLevels(), h, "debug") && Emits(DefaultLevels(), h, "any")
  {
  }

  /** Raising the threshold never lets more through; lowering it never lets less. */
  lemma ThresholdMonotone(levels: Table, h: string, t1: string, t2: string)
    requires h in levels && t1 in levels && t2 in levels
    requires levels[t1].priority <= levels[t2].priority
    ensures Emits(levels, h, t2) ==> Emits(levels, h, t1)
  {
  }

  // ----- The `logLevel` setter's membership test -----

  /**
   * The names every plain JavaScript object inherits from `Object.prototype`.
   * Looking one up in a table gives a function, which is truthy.
   */
  const ObjectPrototypeMembers: set<string> := {
    "constructor", "hasOwnProperty", "isPrototypeOf", "propertyIsEnumerable",
    "toLocaleString", "toString", "valueOf", "__proto__",
    "__defineGetter__", "__defineSetter__", "__lookupGetter__", "__lookupSetter__"
  }

  /** The setter's test as written: `levels[value]` is truthy for own keys and for inherited members. */
  predicate SetterAcceptsAsWritten(levels: Table, value: string) {
    value in levels || value in ObjectPrototypeMembers
  }

  /** The intended test: the value names a level of the table. */
  predicate SetterAccepts(levels: Table, value: string) {
    value in levels
  }

  /**
   * `levels[threshold].priority` as written, for a name the setter as written
   * lets through: an inherited member is a function, which has no `priority`.
   */
  function PriorityAsWritten(levels: Table, name: string): (p: Option<int>)
    requires SetterAcceptsAsWritten(levels, name)
    ensures name in ObjectPrototypeMembers && name !in levels ==> p == None
    ensures name in levels ==> p == Some(levels[name].priority)
  {
    if name in levels then Some(levels[name].priority) else None
  }

  /** The filter as written, where `undefined <= n` is false. */
  predicate EmitsAsWritten(levels: Table, handlerLevel: string, threshold: string)
    requires handlerLevel in levels && SetterAcceptsAsWritten(levels, threshold)
  {
    match PriorityAsWritten(levels, threshold)
    case Some(p) => p <= levels[handlerLevel].priority
    case None => false
  }

  /** On the names the corrected setter accepts, both filters agree. */
  lemma EmitsAsWrittenAgrees(levels: Table, h: string, t: string)
    requires h in levels && SetterAccepts(levels, t)
    ensures EmitsAsWritten(levels, h, t) == Emits(levels, h, t)
  {
  }

  /**
   * The setter as written accepts "toString", which is no level; with that
   * threshold every `_log` call is silently dropped.
   */
  lemma InheritedNameAccepted(levels: Table, h: string)
    requires h in levels && "toString" !in levels
    ensures SetterAcceptsAsWritten(levels, "toString")
    ensures !SetterAccepts(levels, "toString")
    ensures !EmitsAsWritten(levels, h, "toString")
  {
  }

  /** The corrected test is the written one minus the inherited names. */
  lemma SetterAcceptsCorrected(levels: Table, value: string)
    ensures SetterAccepts(levels, value) <==>
      SetterAcceptsAsWritten(levels, value) && (value in ObjectPrototypeMembers ==> value in levels)
  {
  }
}

=== FILE: log_core.dfy ===
/**
 * The `LogInstance` class: its construction from options, the validated
 * `logLevel`/`level` setters, `_log` with its per-level record of the last
 * emission, `lastLog`, and the four level methods.
 */
module LogCore {

  import opened Wrappers
  import opened LevelTable
  import TimestampFormat

  // ----- Errors -----

  /** The errors the logger throws, by their cause. */
  datatype Error =
    | InvalidLogLevel(value: string)
    | CannotOverwrite(name: string)
    | NotAFunction(expression: string)

  /** The text of the thrown `Error`. */
  function Message(e: Error): (m: string)
    ensures e.InvalidLogLevel? ==> "invalid logLevel:\"" <= m
    ensures e.CannotOverwrite? ==> "cannot overwrite existing " <= m
    ensures e.NotAFunction? ==> e.expression <= m && |m| > |e.expression|
  {
    match e
    case InvalidLogLevel(v) => "invalid logLevel:\"" + v + "\""
    case CannotOverwrite(n) =>
      if n == "logLevel" || n == "logger" then "cannot overwrite existing property: " + n
      else if n == "_log" || n == "logInstance" then "cannot overwrite existing method: " + n
      else "cannot overwrite existing method: " + n + "()"
    case NotAFunction(x) => x + " is not a function"
  }

  /** The texts the source throws, one lemma per kind of name. */
  lemma InvalidLevelText()
    ensures Message(InvalidLogLevel("bad")) == "invalid logLevel:\"bad\""
  {
  }

  lemma MethodText()
    ensures Message(CannotOverwrite("_log")) == "cannot overwrite existing method: _log"
  {
  }

  lemma PropertyText()
    ensures Message(CannotOverwrite("logLevel")) == "cannot overwrite existing property: logLevel"
  {
  }

  lemma LevelMethodText()
    ensures Message(CannotOverwrite("info")) == "cannot overwrite existing method: info()"
  {
  }

  /** A call that either returns or throws. */
  datatype Outcome = Ok | Fail(error: Error)

  // ----- Construction -----

  /** The constructor's options; "" stands for an option that is missing or falsy. */
  datatype Options = Options(
    name: string, timestampFormat: string, levels: Option<Table>, logLevel: string, level: string)

  const NoOptions: Options := Options("", "", None, "", "")

  /** JavaScript's `a || b` on strings. */
  function Or(a: string, b: string): string {
    if a != "" then a else b
  }

  function InitialName(opts: Options): string {
    Or(opts.name, "LogInstance")
  }

  function InitialFormat(opts: Options): string {
    Or(opts.timestampFormat, TimestampFormat.DefaultFormat)
  }

  function InitialLevels(opts: Options): Table {
    match opts.levels
    case Some(t) => t
    case None => DefaultLevels()
  }

  /** The value the constructor hands to the `level` setter. */
  function InitialLevel(opts: Options): string {
    Or(Or(opts.logLevel, opts.level), "info")
  }

  /** A new logger with no options: named "LogInstance", default template and table, level 'info'. */
  lemma ConstructorDefaults()
    ensures InitialName(NoOptions) == "LogInstance"
    ensures InitialFormat(NoOptions) == TimestampFormat.DefaultFormat
    ensures InitialLevels(NoOptions) == DefaultLevels()
    ensures InitialLevel(NoOptions) == "info" && SetterAccepts(DefaultLevels(), "info")
  {
  }

  /** `logLevel` wins over `level`, and an empty template falls back to the default one. */
  lemma ConstructorPrecedence(opts: Options)
    ensures opts.logLevel != "" ==> InitialLevel(opts) == opts.logLevel
    ensures opts.logLevel == "" && opts.level != "" ==> InitialLevel(opts) == opts.level
    ensures InitialFormat(opts) != ""
    ensures opts.timestampFormat != "" ==> InitialFormat(opts) == opts.timestampFormat
    ensures InitialName(opts) != ""
  {
  }

  // ----- Records and their text -----

  /** `array.join(' ')`. */
  function Join(xs: seq<string>): string {
    if xs == [] then "" else if |xs| == 1 then xs[0] else xs[0] + " " + Join(xs[1..])
  }

  /** Joining two non-empty lists puts one space between their joins. */
  lemma {:induction false} JoinAppend(xs: seq<string>, ys: seq<string>)
    requires xs != [] && ys != []
    ensures Join(xs + ys) == Join(xs) + " " + Join(ys)
    decreases |xs|
  {
    var zs := xs + ys;
    assert zs[0] == xs[0];
    if |xs| == 1 {
      assert zs[1..] == ys;
    } else {
      assert zs[1..] == xs[1..] + ys;
      JoinAppend(xs[1..], ys);
    }
  }

  /** The list `_log` stores and hands to the handler: timestamp, abbreviation, then the arguments. */
  function Record(levels: Table, format: string, handlerLevel: string, args: seq<string>,
                  now: TimestampFormat.Instant): seq<string>
    requires handlerLevel in levels
  {
    [TimestampFormat.Timestamp(now, format), levels[handlerLevel].abbreviation] + args
  }

  /** The text of a record: "<timestamp> <abbreviation>", then " <arg>" for each argument. */
  lemma RecordText(levels: Table, format: string, h: string, args: seq<string>, now: TimestampFormat.Instant)
    requires h in levels
    ensures Join(Record(levels, format, h, args, now)) ==
      TimestampFormat.Timestamp(now, format) + " " + levels[h].abbreviation +
      (if args == [] then "" else " " + Join(args))
  {
    var ts, abbr := TimestampFormat.Timestamp(now, format), levels[h].abbreviation;
    assert Join([ts, abbr]) == ts + " " + abbr by {
      assert [ts, abbr][1..] == [abbr];
    }
    if args != [] {
      JoinAppend([ts, abbr], args);
    }
  }

  /** What a `_log` call does besides storing the record. */
  datatype LogOutcome =
    | Suppressed
    | Emitted(handler: Handler, record: seq<string>)
    | HandlerMissing(record: seq<string>)   // stored, then `handler.handler.apply` throws

  /** `_log(h, threshold, args)` against the singleton's table and template. */
  function Dispatch(levels: Table, format: string, h: string, threshold: string, args: seq<string>,
                    now: TimestampFormat.Instant): LogOutcome
    requires h in levels && threshold in levels
  {
    if !Emits(levels, h, threshold) then Suppressed
    else
      var rec := Record(levels, format, h, args, now);
      if levels[h].handler == Absent then HandlerMissing(rec) else Emitted(levels[h].handler, rec)
  }

  /** The `_lastLog` dictionary after that call. */
  function NextLastLog(levels: Table, format: string, lastLog: map<string, seq<string>>, h: string,
                       threshold: string, args: seq<string>, now: TimestampFormat.Instant)
    : map<string, seq<string>>
    requires h in levels && threshold in levels
  {
    if Emits(levels, h, threshold) then lastLog[h := Record(levels, format, h, args, now)] else lastLog
  }

  /** The record keeps the arguments, unchanged, after the timestamp and the abbreviation. */
  lemma RecordKeepsArgs(levels: Table, format: string, h: string, args: seq<string>, now: TimestampFormat.Instant)
    requires h in levels
    ensures var r := Record(levels, format, h, args, now);
      |r| == |args| + 2 && r[2..] == args
  {
  }

  /** A call is suppressed exactly when the filter blocks it; otherwise it reaches the level's handler, if it has one. */
  lemma DispatchOutcome(levels: Table, format: string, h: string, t: string, args: seq<string>,
                        now: TimestampFormat.Instant)
    requires h in levels && t in levels
    ensures var o := Dispatch(levels, format, h, t, args, now);
      (o.Suppressed? <==> !Emits(levels, h, t)) &&
      (o.Emitted? ==> o.handler == levels[h].handler != Absent) &&
      (o.HandlerMissing? <==> Emits(levels, h, t) && levels[h].handler == Absent)
  {
  }

  /** `_log` touches no entry of `_lastLog` but the handler level's, and creates that one only when it emits. */
  lemma NextLastLogFrame(levels: Table, format: string, lastLog: map<string, seq<string>>, h: string,
                         t: string, args: seq<string>, now: TimestampFormat.Instant)
    requires h in levels && t in levels
    ensures var next := NextLastLog(levels, format, lastLog, h, t, args, now);
      (forall k :: k != h ==> (k in next <==> k in lastLog) && (k in lastLog ==> next[k] == lastLog[k])) &&
      (h in next <==> h in lastLog || Emits(levels, h, t))
  {
  }

  /** Whether `_lastLog[level]` reads a stored list or `undefined`, and not an inherited member. */
  predicate Readable(lastLog: map<string, seq<string>>, level: string) {
    level in lastLog || level !in ObjectPrototypeMembers
  }

  /** `(this._lastLog[level] || []).join(' ')`. */
  function LastLogOf(lastLog: map<string, seq<string>>, level: string): (text: string)
    requires Readable(lastLog, level)
    ensures level !in lastLog ==> text == ""
    ensures level in lastLog && |lastLog[level]| >= 2 ==> text != ""
  {
    if level in lastLog then Join(lastLog[level]) else ""
  }

  /**
   * A `_log` call and `lastLog` afterwards: the record handed to the handler is
   * the one stored under the handler level, and it is stored exactly when the
   * call is not suppressed.
   */
  lemma DispatchStoresRecord(levels: Table, format: string, lastLog: map<string, seq<string>>, h: string,
                             t: string, args: seq<string>, now: TimestampFormat.Instant)
    requires h in levels && t in levels
    ensures var o := Dispatch(levels, format, h, t, args, now);
      var next := NextLastLog(levels, format, lastLog, h, t, args, now);
      (o.Suppressed? <==> next == lastLog && !Emits(levels, h, t)) &&
      (!o.Suppressed? ==> h in next && next[h] == o.record)
  {
  }

  /**
   * `lastLog(k)` after `_log(h, t, args)`: the joined record for k == h when the
   * filter passes, and the old text for every other level or when it blocks.
   */
  lemma LastLogAfterLog(levels: Table, format: string, lastLog: map<string, seq<string>>, h: string,
                        t: string, args: seq<string>, now: TimestampFormat.Instant, k: string)
    requires h in levels && t in levels
    requires Readable(lastLog, k) || (k == h && Emits(levels, h, t))
    ensures var next := NextLastLog(levels, format, lastLog, h, t, args, now);
      Readable(next, k) &&
      LastLogOf(next, k) ==
        if k == h && Emits(levels, h, t) then
          TimestampFormat.Timestamp(now, format) + " " + levels[h].abbreviation +
          (if args == [] then "" else " " + Join(args))
        else LastLogOf(lastLog, k)
  {
    if k == h && Emits(levels, h, t) {
      RecordText(levels, format, h, args, now);
    }
  }

  /** A level that has never emitted reads as the empty string. */
  lemma NeverEmittedIsEmpty(lastLog: map<string, seq<string>>, level: string)
    requires level !in lastLog && level !in ObjectPrototypeMembers
    ensures LastLogOf(lastLog, level) == ""
  {
  }

  // ----- The logger object -----

  class LogInstance {
    const name: string
    const timestampFormat: string
    const levels: Table
    var logger: LogInstance?
    var logLevel: string
    var lastLog: map<string, seq<string>>

    /** A logger is its own `logger`, and its threshold names one of its levels. */
    ghost predicate Valid()
      reads this
    {
      logger == this && logLevel in levels
    }

    /** The field assignments of the constructor, once the initial level is known to pass the setter. */
    constructor (opts: Options)
      requires SetterAccepts(InitialLevels(opts), InitialLevel(opts))
      ensures Valid()
      ensures name == InitialName(opts) && timestampFormat == InitialFormat(opts)
      ensures levels == InitialLevels(opts) && logLevel == InitialLevel(opts) && lastLog == map[]
    {
      name := InitialName(opts);
      timestampFormat := InitialFormat(opts);
      levels := InitialLevels(opts);
      logLevel := InitialLevel(opts);
      lastLog := map[];
      new;
      logger := this;
    }

    /** The `logLevel` setter: a name that is no level of this logger's table throws and changes nothing. */
    method SetLogLevel(value: string) returns (r: Outcome)
      requires Valid()
      modifies this`logLevel
      ensures Valid()
      ensures r == if SetterAccepts(levels, value) then Ok else Fail(InvalidLogLevel(value))
      ensures logLevel == if r.Ok? then value else old(logLevel)
    {
      if !SetterAccepts(levels, value) {
        return Fail(InvalidLogLevel(value));
      }
      logLevel := value;
      r := Ok;
    }

    /** The deprecated `level` setter forwards to `logLevel`. */
    method SetLevel(value: string) returns (r: Outcome)
      requires Valid()
      modifies this`logLevel
      ensures Valid()
      ensures r == if SetterAccepts(levels, value) then Ok else Fail(InvalidLogLevel(value))
      ensures logLevel == if r.Ok? then value else old(logLevel)
    {
      r := SetLogLevel(value);
    }

    /**
     * `_log(handlerLevel, threshold, args)`.  The table and the template come
     * from `singleton`; the record is stored on this object.
     */
    method Log(singleton: LogInstance, handlerLevel: string, threshold: string, args: seq<string>,
               now: TimestampFormat.Instant) returns (o: LogOutcome)
      requires handlerLevel in singleton.levels && threshold in singleton.levels
      modifies this`lastLog
      ensures o == Dispatch(singleton.levels, singleton.timestampFormat, handlerLevel, threshold, args, now)
      ensures lastLog ==
        NextLastLog(singleton.levels, singleton.timestampFormat, old(lastLog), handlerLevel, threshold, args, now)
    {
      var levels, format := singleton.levels, singleton.timestampFormat;
      var handler := levels[handlerLevel];
      if levels[threshold].priority <= handler.priority {
        var ts := TimestampFormat.Timestamp(now, format);
        var handlerArgs := [ts, handler.abbreviation] + args;
        lastLog := lastLog[handlerLevel := handlerArgs];
        if handler.handler == Absent {
          o := HandlerMissing(handlerArgs);
        } else {
          o := Emitted(handler.handler, handlerArgs);
        }
      } else {
        o := Suppressed;
      }
    }

    /** `lastLog(level = 'info')`. */
    function LastLog(level: string := "info"): string
      reads this
      requires Readable(lastLog, level)
    {
      LastLogOf(lastLog, level)
    }

    method Debug(singleton: LogInstance, args: seq<string>, now: TimestampFormat.Instant) returns (o: LogOutcome)
      requires "debug" in singleton.levels && logLevel in singleton.levels
      modifies this`lastLog
      ensures o == Dispatch(singleton.levels, singleton.timestampFormat, "debug", old(logLevel), args, now)
      ensures lastLog ==
        NextLastLog(singleton.levels, singleton.timestampFormat, old(lastLog), "debug", old(logLevel), args, now)
    {
      o := Log(singleton, "debug", logLevel, args, now);
    }

    method Info(singleton: LogInstance, args: seq<string>, now: TimestampFormat.Instant) returns (o: LogOutcome)
      requires "info" in singleton.levels && logLevel in singleton.levels
      modifies this`lastLog
      ensures o == Dispatch(singleton.levels, singleton.timestampFormat, "info", old(logLevel), args, now)
      ensures lastLog ==
        NextLastLog(singleton.levels, singleton.timestampFormat, old(lastLog), "info", old(logLevel), args, now)
    {
      o := Log(singleton, "info", logLevel, args, now);
    }

    method Warn(singleton: LogInstance, args: seq<string>, now: TimestampFormat.Instant) returns (o: LogOutcome)
      requires "warn" in singleton.levels && logLevel in singleton.levels
      modifies this`lastLog
      ensures o == Dispatch(singleton.levels, singleton.timestampFormat, "warn", old(logLevel), args, now)
      ensures lastLog ==
        NextLastLog(singleton.levels, singleton.timestampFormat, old(lastLog), "warn", old(logLevel), args, now)
    {
      o := Log(singleton, "warn", logLevel, args, now);
    }

    method Error(singleton: LogInstance, args: seq<string>, now: TimestampFormat.Instant) returns (o: LogOutcome)
      requires "error" in singleton.levels && logLevel in singleton.levels
      modifies this`lastLog
      ensures o == Dispatch(singleton.levels, singleton.timestampFormat, "error", old(logLevel), args, now)
      ensures lastLog ==
        NextLastLog(singleton.levels, singleton.timestampFormat, old(lastLog), "error", old(logLevel), args, now)
    {
      o := Log(singleton, "error", logLevel, args, now);
    }
  }

  /** A created logger, or the error its constructor throws. */
  datatype Created = Made(logger: LogInstance) | Refused(error: Error)

  /**
   * `new LogInstance(opts)`: the constructor's call of the `level` setter
   * throws for an initial level that is not in the table.
   */
  method Create(opts: Options) returns (r: Created)
    ensures r.Refused? <==> !SetterAccepts(InitialLevels(opts), InitialLevel(opts))
    ensures r.Refused? ==> r.error == InvalidLogLevel(InitialLevel(opts))
    ensures r.Made? ==> fresh(r.logger) && r.logger.Valid() && r.logger.lastLog == map[]
    ensures r.Made? ==> r.logger.name == InitialName(opts) && r.logger.timestampFormat == InitialFormat(opts)
    ensures r.Made? ==> r.logger.levels == InitialLevels(opts) && r.logger.logLevel == InitialLevel(opts)
  {
    if !SetterAccepts(InitialLevels(opts), InitialLevel(opts)) {
      return Refused(InvalidLogLevel(InitialLevel(opts)));
    }
    var inst := new LogInstance(opts);
    r := Made(inst);
  }

  // ----- The default logger at work -----

  /** `info(msg)` at threshold 'info' reads back as "<timestamp> <abbreviation> msg". */
  lemma InfoHelloText(t: Table, lastLog: map<string, seq<string>>, format: string, msg: string,
                      now: TimestampFormat.Instant)
    requires "info" in t
    ensures LastLogOf(NextLastLog(t, format, lastLog, "info", "info", [msg], now), "info")
      == TimestampFormat.Timestamp(now, format) + " " + t["info"].abbreviation + " " + msg
  {
    LastLogAfterLog(t, format, lastLog, "info", "info", [msg], now, "info");
    assert Join([msg]) == msg;
  }

  /** With the default table, `info` at threshold 'warn' stores nothing. */
  lemma DefaultInfoBlocked(lastLog: map<string, seq<string>>, format: string, args: seq<string>,
                           now: TimestampFormat.Instant)
    ensures NextLastLog(DefaultLevels(), format, lastLog, "info", "warn", args, now) == lastLog
  {
    DefaultFilterRule("info");
  }

  /** The default table's info abbreviation in the text of `info("hello")`. */
  lemma DefaultInfoHelloText(lastLog: map<string, seq<string>>, format: string, now: TimestampFormat.Instant)
    ensures LastLogOf(NextLastLog(DefaultLevels(), format, lastLog, "info", "info", ["hello"], now), "info")
      == TimestampFormat.Timestamp(now, format) + " " + "I" + " hello"
  {
    assert DefaultLevels()["info"].abbreviation == "I";
    InfoHelloText(DefaultLevels(), lastLog, format, "hello", now);
  }

  lemma ExampleLine(ts: string)
    requires ts == "20200131 13:22:33"
    ensures ts + " " + "I" + " hello" == "20200131 13:22:33 I hello"
  {
  }

  /** The default logger writing `info("hello")` at 2020-01-31T13:22:33Z reads back "20200131 13:22:33 I hello". */
  lemma InfoExample(lastLog: map<string, seq<string>>)
    ensures LastLogOf(NextLastLog(DefaultLevels(), TimestampFormat.DefaultFormat, lastLog, "info", "info",
                                  ["hello"], TimestampFormat.Instant(2020, 0, 31, 13, 22, 33)), "info")
      == "20200131 13:22:33 I hello"
  {
    var now := TimestampFormat.Instant(2020, 0, 31, 13, 22, 33);
    TimestampFormat.Examples();
    DefaultInfoHelloText(lastLog, TimestampFormat.DefaultFormat, now);
    ExampleLine(TimestampFormat.Timestamp(now, TimestampFormat.DefaultFormat));
  }
}

=== FILE: scenarios.dfy ===
/**
 * The documented usage of a utility class that binds itself to the default
 * logger, played through the model's objects and methods.
 */
module Scenarios {

  import opened Wrappers
  import opened LevelTable
  import opened LogCore
  import opened Binder
  import TimestampFormat

  /**
   * `util` (class `MyUtility`, no own name) is bound directly to `logger`,
   * which has the default table, with the class name prefixed,
   * `log` installed and its own `logLevel` installed as `false`.
   */
  ghost predicate BoundToDefault(logger: LogInstance, util: Node)
    reads logger, util, util.ParentNodes()
  {
    logger.Valid() && logger.levels == DefaultLevels() &&
    util.Valid() && util.binding == Some(Binding(Root(logger), true)) &&
    util.name == "" && util.constructorName == "MyUtility" &&
    Get(util.props, "log") == Some(Installed) && Get(util.props, "logLevel") == Some(LevelSetting(False))
  }

  /** A default logger, and a `MyUtility` object bound to it with the default options. */
  method BoundUtility() returns (logger: LogInstance, util: Node)
    ensures fresh(logger) && fresh(util) && BoundToDefault(logger, util)
    ensures logger.logLevel == "info" && logger.lastLog == map[]
    ensures util.Label() == "MyUtility"
  {
    logger := new LogInstance(NoOptions);
    util := new Node("", "MyUtility", map[]);
    assert util.props == map[];
    var bound := Bind(logger, util, BindOptions(None));
    AfterBind(map[]) by {
      BindStopsAtFirstCollision(map[]);
    }
    assert Reserved[2] == "logLevel" && Reserved[4] == "log";
  }

  /** The line `myUtil.log(msg)` stores under 'info' with the default table. */
  lemma MessageLine(format: string, msg: string, now: TimestampFormat.Instant)
    ensures LastLogOf(NextLastLog(DefaultLevels(), format, map[], "info", "info",
                                  Outgoing("MyUtility", [msg], true), now), "info")
      == TimestampFormat.Timestamp(now, format) + " " + "I" + " " + ("MyUtility" + ": " + msg)
  {
    assert Emits(DefaultLevels(), "info", "info") && DefaultLevels()["info"].abbreviation == "I";
    BoundRecordText(DefaultLevels(), format, map[], "info", "info", "MyUtility", [msg], now);
    assert Join([msg]) == msg;
  }

  /** `myUtil.log(msg)` lands in the logger's info entry, prefixed with the class name. */
  method LogMessage(msg: string, now: TimestampFormat.Instant) returns (logger: LogInstance, util: Node, first: string)
    ensures fresh(logger) && fresh(util) && BoundToDefault(logger, util) && logger.logLevel == "info"
    ensures "info" in logger.lastLog && first == LastLogOf(logger.lastLog, "info")
    ensures first == TimestampFormat.Timestamp(now, logger.timestampFormat) + " " + "I" + " " + ("MyUtility" + ": " + msg)
  {
    logger, util := BoundUtility();
    assert util.RootOf() == logger && util.EffectiveLevel() == Some("info");
    assert Emits(logger.levels, "info", "info");
    var o := util.Log(logger, [msg], now);
    assert logger.lastLog == NextLastLog(DefaultLevels(), logger.timestampFormat, map[], "info", "info",
                                         Outgoing("MyUtility", [msg], true), now);
    MessageLine(logger.timestampFormat, msg, now);
    first := LastLogOf(logger.lastLog, "info");
  }

  /** Once the logger moves to 'warn', the utility's next `log` is muted: the info entry keeps the earlier line. */
  method MuteAfterWarn(now: TimestampFormat.Instant) returns (logger: LogInstance, util: Node, first: string, muted: string)
    ensures fresh(logger) && fresh(util) && BoundToDefault(logger, util) && logger.logLevel == "warn"
    ensures "info" in logger.lastLog && muted == LastLogOf(logger.lastLog, "info") && muted == first
  {
    var greeting, ignored := "hello world", "Nobody listens to me";
    logger, util, first := LogMessage(greeting, now);
    var setting := logger.SetLogLevel("warn");
    assert util.RootOf() == logger && util.EffectiveLevel() == Some("warn");
    assert !Emits(logger.levels, "info", "warn");
    ghost var before := logger.lastLog;
    var o := util.Log(logger, [ignored], now);
    assert logger.lastLog == before;
    muted := LastLogOf(logger.lastLog, "info");
  }

  /**
   * When the utility assigns 'info' to its own `logLevel`, its `log` passes
   * although the logger stays at 'warn', and the logger's own `info` is still muted.
   */
  method OverrideLevel(now: TimestampFormat.Instant) returns (logger: LogInstance, util: Node, own: LogOutcome, core: LogOutcome)
    ensures fresh(logger) && fresh(util) && logger.logLevel == "warn"
    ensures own.Emitted? && own.handler == ConsoleLog
    ensures core == Suppressed
  {
    var first, muted;
    logger, util, first, muted := MuteAfterWarn(now);
    util.AssignLogLevel("info");
    assert util.RootOf() == logger && util.EffectiveLevel() == Some("info");
    assert Emits(logger.levels, "info", "info") && !Emits(logger.levels, "info", "warn");
    own := util.Log(logger, ["Hello"], now);
    core := logger.Info(logger, ["Nobody listens to me"], now);
  }
}

=== FILE: timestamp.dfy ===
/**
 * The static `timestamp(now, timestampFormat)` of the logger: a chain of six
 * global, literal replacements over a template string.  The clock is not
 * modelled: the UTC fields of `now` are passed in as an `Instant`.
 */
module TimestampFormat {

  /** The UTC fields of a `Date`; `monthIndex` is zero-based, as `getUTCMonth()` returns it. */
  datatype Instant = Instant(year: int, monthIndex: nat, day: nat, hours: nat, minutes: nat, seconds: nat)

  /** The six template tokens, in the order the replacements are applied. */
  const Tokens: seq<string> := ["YYYY", "MM", "DD", "HH", "mm", "ss"]

  /** The template used when none (or an empty one) is given. */
  const DefaultFormat: string := "YYYYMMDD HH:mm:ss"

  /** The characters that make up the tokens. */
  predicate IsTokenLetter(c: char) {
    c == 'Y' || c == 'M' || c == 'D' || c == 'H' || c == 'm' || c == 's'
  }

  function DigitChar(d: nat): (c: char)
    requires d < 10
    ensures '0' <= c <= '9'
  {
    "0123456789"[d]
  }

  /** Decimal notation of a natural number, as `String(n)` writes it. */
  function NatToString(n: nat): (s: string)
    ensures |s| >= 1
  {
    if n < 10 then [DigitChar(n)] else NatToString(n / 10) + [DigitChar(n % 10)]
  }

  lemma {:induction false} NatToStringDigits(n: nat)
    ensures forall i :: 0 <= i < |NatToString(n)| ==> '0' <= NatToString(n)[i] <= '9'
  {
    if n >= 10 {
      NatToStringDigits(n / 10);
    }
  }

  /** The last two characters of `String(n)` are its units and (when n >= 10) tens digits. */
  lemma {:induction false} NatToStringLastDigits(n: nat)
    ensures var s := NatToString(n);
      s[|s| - 1] == DigitChar(n % 10) &&
      (n < 10 ==> |s| == 1) &&
      (n >= 10 ==> |s| >= 2 && s[|s| - 2] == DigitChar(n / 10 % 10))
  {
    if n >= 10 {
      NatToStringLastDigits(n / 10);
    }
  }

  /** Decimal notation of an integer, with a leading '-' when negative. */
  function IntToString(i: int): (s: string)
    ensures |s| >= 1
  {
    if i < 0 then "-" + NatToString(-i) else NatToString(i)
  }

  /** The source's `` `0${n}`.slice(-2) ``: the last two characters of "0" followed by n. */
  function Pad2(n: nat): (s: string)
    ensures s == [DigitChar(n / 10 % 10), DigitChar(n % 10)]
  {
    var t := "0" + NatToString(n);
    NatToStringLastDigits(n);
    t[|t| - 2..]
  }

  /** What replaces each token of `Tokens`, in the same order. */
  function Fields(now: Instant): (f: seq<string>)
    ensures |f| == |Tokens|
  {
    [IntToString(now.year), Pad2(now.monthIndex + 1), Pad2(now.day),
     Pad2(now.hours), Pad2(now.minutes), Pad2(now.seconds)]
  }

  /** One non-empty replacement per token, none of which can start a token itself. */
  predicate ValidFields(f: seq<string>) {
    |f| == |Tokens| && forall k :: 0 <= k < |f| ==> f[k] != [] && Inert(f[k])
  }

  lemma IntToStringInert(i: int)
    ensures Inert(IntToString(i))
  {
    NatToStringDigits(if i < 0 then -i else i);
  }

  lemma Pad2Inert(n: nat)
    ensures Inert(Pad2(n))
  {
    var s := Pad2(n);
    assert '0' <= s[0] <= '9' && '0' <= s[1] <= '9';
  }

  lemma FieldsValid(now: Instant)
    ensures ValidFields(Fields(now))
  {
    forall k | 0 <= k < |Tokens| ensures Fields(now)[k] != [] && Inert(Fields(now)[k]) {
      FieldValid(now, k);
    }
  }

  lemma FieldValid(now: Instant, k: nat)
    requires k < |Tokens|
    ensures Fields(now)[k] != [] && Inert(Fields(now)[k])
  {
    var f := Fields(now);
    if k == 0 {
      IntToStringInert(now.year);
    } else if k == 1 {
      Pad2Inert(now.monthIndex + 1);
    } else if k == 2 {
      Pad2Inert(now.day);
    } else if k == 3 {
      Pad2Inert(now.hours);
    } else if k == 4 {
      Pad2Inert(now.minutes);
    } else {
      Pad2Inert(now.seconds);
    }
  }

  /** No character of s can start a token. */
  predicate Inert(s: string) {
    forall i :: 0 <= i < |s| ==> !IsTokenLetter(s[i])
  }

  /**
   * `s.replace(/pat/g, rep)` for a literal pattern: matches are found left to
   * right and do not overlap.
   */
  function ReplaceAll(s: string, pat: string, rep: string): string
    requires pat != []
    decreases |s|
  {
    if |s| < |pat| then s
    else if s[..|pat|] == pat then rep + ReplaceAll(s[|pat|..], pat, rep)
    else [s[0]] + ReplaceAll(s[1..], pat, rep)
  }

  /** `LogInstance.timestamp(now, format)`, one replacement per line as the source chains them. */
  function Timestamp(now: Instant, format: string): string {
    var s1 := ReplaceAll(format, "YYYY", IntToString(now.year));
    var s2 := ReplaceAll(s1, "MM", Pad2(now.monthIndex + 1));
    var s3 := ReplaceAll(s2, "DD", Pad2(now.day));
    var s4 := ReplaceAll(s3, "HH", Pad2(now.hours));
    var s5 := ReplaceAll(s4, "mm", Pad2(now.minutes));
    ReplaceAll(s5, "ss", Pad2(now.seconds))
  }

  /** The replacements for tokens k, k+1, ... applied in turn. */
  function ReplaceFrom(s: string, f: seq<string>, k: nat): string
    requires k <= |Tokens| && ValidFields(f)
    decreases |Tokens| - k
  {
    if k == |Tokens| then s else ReplaceFrom(ReplaceAll(s, Tokens[k], f[k]), f, k + 1)
  }

  predicate TokenAt(s: string, k: nat)
    requires k < |Tokens|
  {
    |Tokens[k]| <= |s| && s[..|Tokens[k]|] == Tokens[k]
  }

  /** The least j >= k such that token j starts s, or |Tokens| when there is none. */
  function FirstToken(s: string, k: nat): (j: nat)
    requires k <= |Tokens|
    ensures k <= j <= |Tokens|
    ensures j < |Tokens| ==> TokenAt(s, j)
    ensures forall m :: k <= m < j ==> !TokenAt(s, m)
    decreases |Tokens| - k
  {
    if k == |Tokens| then k else if TokenAt(s, k) then k else FirstToken(s, k + 1)
  }

  /**
   * Reference reading of the template language: scan the template once, left
   * to right, replacing each token found and copying every other character.
   */
  function Render(f: seq<string>, s: string): string
    requires |f| == |Tokens|
    decreases |s|
  {
    if s == [] then []
    else
      var j := FirstToken(s, 0);
      if j < |Tokens| then f[j] + Render(f, s[|Tokens[j]|..])
      else [s[0]] + Render(f, s[1..])
  }

  // ----- Proof that the chain of replacements is the single-pass reading -----

  lemma TimestampIsReplaceFrom(now: Instant, format: string)
    requires ValidFields(Fields(now))
    ensures Timestamp(now, format) == ReplaceFrom(format, Fields(now), 0)
  {
  }

  lemma {:induction false} ReplaceAllEmpty(pat: string, rep: string)
    requires pat != []
    ensures ReplaceAll([], pat, rep) == []
  {
  }

  lemma {:induction false} ReplaceFromEmpty(f: seq<string>, k: nat)
    requires k <= |Tokens| && ValidFields(f)
    ensures ReplaceFrom([], f, k) == []
    decreases |Tokens| - k
  {
    if k < |Tokens| {
      ReplaceAllEmpty(Tokens[k], f[k]);
      ReplaceFromEmpty(f, k + 1);
    }
  }

  /** A text in which the pattern cannot start, or a pattern replaced by itself, comes back unchanged. */
  lemma {:induction false} ReplaceAllUnchanged(s: string, pat: string, rep: string)
    requires pat != [] && (pat[0] !in s || rep == pat)
    ensures ReplaceAll(s, pat, rep) == s
    decreases |s|
  {
    if |s| >= |pat| {
      if s[..|pat|] == pat {
        assert pat[0] == s[0];
        ReplaceAllUnchanged(s[|pat|..], pat, rep);
        assert s == s[..|pat|] + s[|pat|..];
      } else {
        assert pat[0] !in s ==> pat[0] !in s[1..];
        ReplaceAllUnchanged(s[1..], pat, rep);
        assert s == [s[0]] + s[1..];
      }
    }
  }

  /** A prefix none of whose characters starts the pattern is copied unchanged. */
  lemma {:induction false} ReplaceAllSkips(w: string, x: string, pat: string, rep: string)
    requires pat != [] && pat[0] !in w
    ensures ReplaceAll(w + x, pat, rep) == w + ReplaceAll(x, pat, rep)
    decreases |w|
  {
    if w != [] {
      var s := w + x;
      assert s[0] == w[0] && s[1..] == w[1..] + x;
      if |s| < |pat| {
        assert ReplaceAll(x, pat, rep) == x;
        assert ReplaceAll(s, pat, rep) == s;
      } else {
        assert s[..|pat|][0] == w[0];
        assert s[..|pat|] != pat;
        ReplaceAllSkips(w[1..], x, pat, rep);
        assert ReplaceAll(s, pat, rep) == [w[0]] + ReplaceAll(w[1..] + x, pat, rep);
        assert [w[0]] + (w[1..] + ReplaceAll(x, pat, rep)) == w + ReplaceAll(x, pat, rep);
      }
    } else {
      assert w + x == x;
    }
  }

  lemma TokenFacts(m: nat)
    requires m < |Tokens|
    ensures Tokens[m] != [] && IsTokenLetter(Tokens[m][0])
    ensures m > 0 ==> |Tokens[m]| == 2 && Tokens[m][1] == Tokens[m][0]
  {
  }

  /** An inert prefix passes through every remaining replacement. */
  lemma {:induction false} ReplaceFromSkips(w: string, x: string, f: seq<string>, k: nat)
    requires k <= |Tokens| && Inert(w) && ValidFields(f)
    ensures ReplaceFrom(w + x, f, k) == w + ReplaceFrom(x, f, k)
    decreases |Tokens| - k
  {
    if k < |Tokens| {
      TokenFacts(k);
      ReplaceAllSkips(w, x, Tokens[k], f[k]);
      ReplaceFromSkips(w, ReplaceAll(x, Tokens[k], f[k]), f, k + 1);
    }
  }

  /** A token j at the front becomes its field, whatever replacements up to j remain. */
  lemma {:induction false} ReplaceFromToken(j: nat, t: string, f: seq<string>, k: nat)
    requires k <= j < |Tokens| && ValidFields(f)
    ensures ReplaceFrom(Tokens[j] + t, f, k) == f[j] + ReplaceFrom(t, f, k)
    decreases j - k
  {
    var T := Tokens[j];
    TokenFacts(j);
    TokenFacts(k);
    var r := ReplaceAll(t, Tokens[k], f[k]);
    if k < j {
      assert Tokens[k][0] !in T by {
        assert forall i :: 0 <= i < |T| ==> T[i] == T[0];
      }
      ReplaceAllSkips(T, t, Tokens[k], f[k]);
      ReplaceFromToken(j, r, f, k + 1);
    } else {
      var s := T + t;
      assert s[..|T|] == T && s[|T|..] == t;
      assert ReplaceAll(s, T, f[j]) == f[j] + r;
      ReplaceFromSkips(f[j], r, f, k + 1);
    }
  }

  /** The first character of a replacement result is the input's or the replacement's. */
  lemma ReplaceAllHead(t: string, pat: string, rep: string)
    requires pat != [] && rep != [] && t != []
    ensures ReplaceAll(t, pat, rep) != []
    ensures ReplaceAll(t, pat, rep)[0] == t[0] || ReplaceAll(t, pat, rep)[0] == rep[0]
  {
  }

  predicate NoTokenFrom(s: string, k: nat)
    requires k <= |Tokens|
  {
    forall m :: k <= m < |Tokens| ==> !TokenAt(s, m)
  }

  /** A character that starts no token passes through every remaining replacement. */
  lemma {:induction false} ReplaceFromCopies(c: char, t: string, f: seq<string>, k: nat)
    requires k <= |Tokens| && NoTokenFrom([c] + t, k) && ValidFields(f)
    ensures ReplaceFrom([c] + t, f, k) == [c] + ReplaceFrom(t, f, k)
    decreases |Tokens| - k
  {
    if k < |Tokens| {
      var pat, rep := Tokens[k], f[k];
      TokenFacts(k);
      var s := [c] + t;
      assert s[1..] == t;
      assert !TokenAt(s, k);
      assert ReplaceAll(s, pat, rep) == [c] + ReplaceAll(t, pat, rep);
      var t' := ReplaceAll(t, pat, rep);
      forall m | k + 1 <= m < |Tokens|
        ensures !TokenAt([c] + t', m)
      {
        TokenFacts(m);
        if c == Tokens[m][0] {
          // s does not start with the two-letter token [c, c], so t does not start with c
          assert !TokenAt(s, m);
          assert t == [] || t[0] != c by {
            if t != [] { assert s[..2] == [c, t[0]]; }
          }
          if t == [] {
            ReplaceAllEmpty(pat, rep);
          } else {
            ReplaceAllHead(t, pat, rep);
            assert !IsTokenLetter(rep[0]);
          }
          assert t' == [] || t'[0] != c;
          assert |[c] + t'| < 2 || ([c] + t')[..2] == [c, t'[0]];
        }
      }
      ReplaceFromCopies(c, t', f, k + 1);
    }
  }

  /** The six chained replacements read the template exactly as the single pass does. */
  lemma TimestampIsSinglePass(now: Instant, format: string)
    ensures Timestamp(now, format) == Render(Fields(now), format)
  {
    FieldsValid(now);
    TimestampIsReplaceFrom(now, format);
    ReplaceFromIsRender(Fields(now), format);
  }

  lemma {:induction false} ReplaceFromIsRender(f: seq<string>, s: string)
    requires ValidFields(f)
    ensures ReplaceFrom(s, f, 0) == Render(f, s)
    decreases |s|
  {
    if s == [] {
      ReplaceFromEmpty(f, 0);
    } else {
      var j := FirstToken(s, 0);
      if j < |Tokens| {
        var t := s[|Tokens[j]|..];
        assert s == Tokens[j] + t;
        ReplaceFromToken(j, t, f, 0);
        ReplaceFromIsRender(f, t);
      } else {
        assert s == [s[0]] + s[1..];
        ReplaceFromCopies(s[0], s[1..], f, 0);
        ReplaceFromIsRender(f, s[1..]);
      }
    }
  }

  /** A template without tokens comes back unchanged. */
  lemma NoTokensUnchanged(now: Instant, format: string)
    requires forall i :: 0 <= i <= |format| ==> NoTokenFrom(format[i..], 0)
    ensures Timestamp(now, format) == format
  {
    TimestampIsSinglePass(now, format);
    RenderNoTokens(Fields(now), format);
  }

  lemma {:induction false} RenderNoTokens(f: seq<string>, s: string)
    requires |f| == |Tokens| && forall i :: 0 <= i <= |s| ==> NoTokenFrom(s[i..], 0)
    ensures Render(f, s) == s
    decreases |s|
  {
    if s != [] {
      assert s[0..] == s;
      assert FirstToken(s, 0) == |Tokens|;
      forall i | 0 <= i <= |s[1..]| ensures NoTokenFrom(s[1..][i..], 0) {
        assert s[1..][i..] == s[i + 1..];
      }
      RenderNoTokens(f, s[1..]);
    }
  }

  /** A token at the front of the template becomes its field. */
  lemma RenderToken(f: seq<string>, j: nat, t: string)
    requires j < |Tokens| == |f|
    ensures Render(f, Tokens[j] + t) == f[j] + Render(f, t)
  {
    var s := Tokens[j] + t;
    TokenFacts(j);
    assert s[..|Tokens[j]|] == Tokens[j] && s[|Tokens[j]|..] == t;
    FirstTokenIs(s, j);
  }

  /** The tokens start with pairwise different letters, so a token at the front is the first one found. */
  lemma FirstTokenIs(s: string, j: nat)
    requires j < |Tokens| && TokenAt(s, j)
    ensures FirstToken(s, 0) == j
  {
    TokenFacts(j);
    forall m | 0 <= m < j ensures !TokenAt(s, m) {
      TokenFacts(m);
      assert s[0] == Tokens[j][0] != Tokens[m][0];
    }
  }

  /** A character that is no token letter is copied. */
  lemma RenderChar(f: seq<string>, c: char, t: string)
    requires !IsTokenLetter(c) && |f| == |Tokens|
    ensures Render(f, [c] + t) == [c] + Render(f, t)
  {
    var s := [c] + t;
    assert s[1..] == t;
    forall m | 0 <= m < |Tokens| ensures !TokenAt(s, m) {
      TokenFacts(m);
      assert s[0] == c;
    }
    assert FirstToken(s, 0) == |Tokens|;
  }

  lemma RenderEmpty(f: seq<string>)
    requires |f| == |Tokens|
    ensures Render(f, []) == []
  {
  }


  // ----- Templates built from tokens and plain characters -----

  /** One element of a template: a token (by index) or a character that is no token letter. */
  datatype Piece = Tok(index: nat) | Chr(c: char)

  predicate PiecesOk(ps: seq<Piece>) {
    forall i :: 0 <= i < |ps| ==>
      match ps[i] { case Tok(j) => j < |Tokens| case Chr(c) => !IsTokenLetter(c) }
  }

  /** The template text the pieces spell. */
  function Spell(ps: seq<Piece>): string
    requires PiecesOk(ps)
  {
    if ps == [] then []
    else (match ps[0] { case Tok(j) => Tokens[j] case Chr(c) => [c] }) + Spell(ps[1..])
  }

  /** The text expected for the pieces: each token's field, each character as is. */
  function Layout(f: seq<string>, ps: seq<Piece>): string
    requires |f| == |Tokens| && PiecesOk(ps)
  {
    if ps == [] then []
    else (match ps[0] { case Tok(j) => f[j] case Chr(c) => [c] }) + Layout(f, ps[1..])
  }

  lemma {:induction false} RenderPieces(f: seq<string>, ps: seq<Piece>)
    requires |f| == |Tokens| && PiecesOk(ps)
    ensures Render(f, Spell(ps)) == Layout(f, ps)
  {
    if ps == [] {
      RenderEmpty(f);
    } else {
      RenderPieces(f, ps[1..]);
      match ps[0] {
        case Tok(j) => RenderToken(f, j, Spell(ps[1..]));
        case Chr(c) => RenderChar(f, c, Spell(ps[1..]));
      }
    }
  }

  /** A template spelled from pieces formats as the layout of the instant's fields. */
  lemma TimestampOfPieces(now: Instant, ps: seq<Piece>)
    requires PiecesOk(ps)
    ensures Timestamp(now, Spell(ps)) == Layout(Fields(now), ps)
  {
    TimestampIsSinglePass(now, Spell(ps));
    RenderPieces(Fields(now), ps);
  }

  // ----- The two templates of the source's own usage -----

  /** "YYYYMMDD HH:mm:ss", the default template. */
  const DefaultPieces: seq<Piece> :=
    [Tok(0), Tok(1), Tok(2), Chr(' '), Tok(3), Chr(':'), Tok(4), Chr(':'), Tok(5)]

  /** "YYYY-MM-DD HHmmss". */
  const DashedPieces: seq<Piece> :=
    [Tok(0), Chr('-'), Tok(1), Chr('-'), Tok(2), Chr(' '), Tok(3), Tok(4), Tok(5)]

  lemma DefaultPiecesOk()
    ensures PiecesOk(DefaultPieces)
  {
  }

  lemma DefaultPiecesSpell()
    requires PiecesOk(DefaultPieces)
    ensures Spell(DefaultPieces) == DefaultFormat
  {
  }

  lemma DashedPiecesOk()
    ensures PiecesOk(DashedPieces)
  {
  }

  lemma DashedPiecesSpell()
    requires PiecesOk(DashedPieces)
    ensures Spell(DashedPieces) == "YYYY-MM-DD HHmmss"
  {
  }

  /** The fields of 2020-01-31T13:22:33Z. */
  lemma ExampleFields()
    ensures Fields(Instant(2020, 0, 31, 13, 22, 33)) == ["2020", "01", "31", "13", "22", "33"]
  {
    ExampleYear();
    ExampleMonth();
    ExampleDay();
    assert Pad2(13) == "13";
    assert Pad2(22) == "22";
    assert Pad2(33) == "33";
  }

  lemma ExampleYear() ensures IntToString(2020) == "2020" { }
  lemma ExampleMonth() ensures Pad2(1) == "01" { }
  lemma ExampleDay() ensures Pad2(31) == "31" { }

  lemma DefaultExampleLayout()
    ensures Layout(["2020", "01", "31", "13", "22", "33"], DefaultPieces) == "20200131 13:22:33"
  {
  }

  lemma DashedExampleLayout()
    ensures Layout(["2020", "01", "31", "13", "22", "33"], DashedPieces) == "2020-01-31 132233"
  {
  }

  /** The instant 2020-01-31T13:22:33Z through the default template and through "YYYY-MM-DD HHmmss". */
  lemma Examples()
    ensures Timestamp(Instant(2020, 0, 31, 13, 22, 33), DefaultFormat) == "20200131 13:22:33"
    ensures Timestamp(Instant(2020, 0, 31, 13, 22, 33), "YYYY-MM-DD HHmmss") == "2020-01-31 132233"
  {
    ExampleFields();
    DefaultPiecesOk();
    DashedPiecesOk();
    DefaultPiecesSpell();
    DashedPiecesSpell();
    TimestampOfPieces(Instant(2020, 0, 31, 13, 22, 33), DefaultPieces);
    TimestampOfPieces(Instant(2020, 0, 31, 13, 22, 33), DashedPieces);
    DefaultExampleLayout();
    DashedExampleLayout();
  }
}

=== FILE: wrappers.dfy ===
/** An optional value, shared by the other modules. */
module Wrappers {

  datatype Option<+T> = None | Some(value: T)
}
